=== FILE: README.md ===
# Minesweeper engine in Dafny

A model of the game engine of a JavaFX Minesweeper: the `Minefield` class
(mine placement, the neighbour-count matrix `bombValues`, random board
generation, the breadth-first reveal, `chooseCell`, the text encoder and the
text-file constructor), the `Cell` bomb-status state machine and the
`Difficulty` record.

The minefield is an immutable value (`Grid.Field`): a map from positions to
cells (a display state and a mine flag), a parallel map of counts (-1 on a
mine, otherwise the number of mined 8-neighbours), `bombCount`, `firstMove`
and the game result. Every mutating Java method becomes a method that takes a
field and returns the new one. The central invariant `Grid.Consistent` says
that the counts are -1 exactly on the mines, the number of mined
neighbours elsewhere, and that `bombCount` is the number of mines.

Files and modules:

- `results.dfy` (`Results`): the `Result` type used for the error paths.
- `cell.dfy` (`CellModel`): `Cell.java`, with its own `CellStatus` and `BombStatus`.
- `difficulty.dfy` (`DifficultyModel`): the `Difficulty` record, its validation and its presets.
- `grid.dfy` (`Grid`): the field, positions, neighbourhoods and the count invariant.
- `bombs.dfy` (`Bombs`): `addBomb`, `neighborCount`, `removeBomb` and `moveBombToFirstEmpty`.
- `reveal.dfy` (`Reveal`): `revealCell`, `revealArea`, `revealAll` and `chooseCell`.
- `generation.dfy` (`Generation`): the random constructor, `shuffle2DArray` and the fill loop.
- `textcodec.dfy` (`TextCodec`): `toString`/`getCellChar` and the `Minefield(File)` constructor.

`Minefield.java` and `Cell.java` come from different revisions of the
repository. `Minefield` uses a cell with a `CellState` (HIDDEN, REVEALED,
FLAGGED, FLAGGED_QUESTION, EXPLODED) and a boolean mine flag. `Cell.java` has
`CellStatus` and `BombStatus` instead. `Minefield` is therefore modelled
over `Grid.Cell(state, bomb)`, and `Cell.java` is modelled on its own.

Java `assert` statements become preconditions of the members that model
their methods: the public `addBomb` and `removeBomb` (Minefield.java lines
157 and 173) and the private `revealCell`, `revealArea` and
`moveBombToFirstEmpty` (lines 216-217, 250 and 226). `Reveal.ChooseCell` and
`Reveal.ChooseCellAsWritten` take any position of a consistent field (the
invariant every constructor establishes). They return `AssertionFailed` on a
first move where one of the private helpers' assertions would fire.

Facts about the code that the model follows:

- `Difficulty` (Difficulty.java lines 9-13) and the random constructor (Minefield.java lines 21-26) accept 4..100 rows and columns and a mine percentage of 0..99.
- The random constructor computes the mine count with the formula at Minefield.java line 33 (see Findings).
- The file constructor reads '#', 'X', 'b' and 'B' (Minefield.java lines 88-101); `getCellChar` writes '#', 'F', 'B' or a digit (lines 289-305).
- `result` is only ever IN_PROGRESS (lines 29 and 63) or GAME_LOST (line 206): nothing detects a win.

## Model

| member | source | states |
|---|---|---|
| CellModel.NewCell | src/main/java/com/somerdin/minesweeper/game/Cell.java:7-10 | a new cell has the requested status and no mine, and satisfies "detonated only when revealed" |
| CellModel.SetBomb | src/main/java/com/somerdin/minesweeper/game/Cell.java:16-18 | `isBomb()` afterwards equals the argument, the mine is never DETONATED afterwards, and `cellStatus` is unchanged |
| CellModel.SetBombOwnFlag | src/main/java/com/somerdin/minesweeper/game/Cell.java:12-18 | `setBomb(isBomb())` leaves a cell unchanged exactly when it is not DETONATED (a detonated mine falls back to UNDETONATED) |
| CellModel.SetBombStatus | src/main/java/com/somerdin/minesweeper/game/Cell.java:24-29 | throws exactly for DETONATED on a cell that is not REVEALED; otherwise sets that bomb status, keeps `cellStatus` and keeps the detonation invariant |
| CellModel.SetCellStatus | src/main/java/com/somerdin/minesweeper/game/Cell.java:35-37 | sets the status and changes neither the bomb status nor `isBomb()` |
| CellModel.SetCellStatusDetonation | src/main/java/com/somerdin/minesweeper/game/Cell.java:35-37 | an unguarded status change keeps "detonated only when revealed" exactly when the cell is not detonated or the new status is REVEALED |
| DifficultyModel.MakeDifficulty | src/main/java/com/somerdin/minesweeper/game/Difficulty.java:8-15 | succeeds iff rows and cols are in 4..100 and the percentage in 0..99; the dimension error wins when both are wrong; a built record holds exactly its arguments |
| DifficultyModel.PresetsAreValid | src/main/java/com/somerdin/minesweeper/game/Difficulty.java:4-6 | EASY (8,8,16), MEDIUM (16,16,16) and HARD (16,30,21) pass the constructor's checks |
| Grid.NeighbourMinesAtMostEight | src/main/java/com/somerdin/minesweeper/game/Minefield.java:14 | a cell has at most eight mined neighbours |
| Grid.ConsistentValueRange | src/main/java/com/somerdin/minesweeper/game/Minefield.java:14 | in a consistent field every count is -1 or 0..8, and -1 exactly on mines |
| Grid.StatesDoNotMatter | src/main/java/com/somerdin/minesweeper/game/Minefield.java:14 | changing only display states keeps the count invariant |
| Bombs.AddBomb | src/main/java/com/somerdin/minesweeper/game/Minefield.java:156-170 | the target becomes a mine with -1; each non-mine cell of its 3x3 block gains one; mines keep -1; nothing else changes; `bombCount` rises by one; the invariant is kept |
| Bombs.AddBombKeepsCounts | src/main/java/com/somerdin/minesweeper/game/Minefield.java:156-170 | the bump of `addBomb` adds exactly the target to the mines and keeps every count equal to the number of mined neighbours |
| Bombs.NeighborCount | src/main/java/com/somerdin/minesweeper/game/Minefield.java:120-131 | the result is the number of mines in the 3x3 block: the mined neighbours plus one if the cell itself is a mine |
| Bombs.NeighborRow | src/main/java/com/somerdin/minesweeper/game/Minefield.java:124-128 | one pass of the inner loop adds exactly the mines of block row i to the running count |
| Bombs.MarkedAroundAreMines | src/main/java/com/somerdin/minesweeper/game/Minefield.java:178-184 | in a consistent field the neighbours holding -1 are exactly the mined neighbours |
| Bombs.RemovedMineLowersCount | src/main/java/com/somerdin/minesweeper/game/Minefield.java:172-186 | removing a mine lowers the true count of each neighbour by one |
| Bombs.RemoveBombAsWritten | src/main/java/com/somerdin/minesweeper/game/Minefield.java:172-186 | as written: the mine goes, `bombCount` drops by one, the centre count becomes the number of -1 entries around it (its mined-neighbour count in a consistent field), no other count changes and every other field is kept, so a consistent field with a safe neighbour becomes inconsistent |
| Bombs.RemoveBomb | src/main/java/com/somerdin/minesweeper/game/Minefield.java:172-186 | corrected: the same, and each safe neighbour loses one, so the invariant is kept |
| Bombs.RemoveBombKeepsConsistency | src/main/java/com/somerdin/minesweeper/game/Minefield.java:172-186 | the corrected update restores "count = mined neighbours" everywhere |
| Bombs.FirstEmpty | src/main/java/com/somerdin/minesweeper/game/Minefield.java:228-238 | finds a safe cell iff one exists, and it is the first in row-major order |
| Bombs.FirstSafeUnique | src/main/java/com/somerdin/minesweeper/game/Minefield.java:224-235 | a board has at most one first safe cell in row-major order, so the cell the move contracts name is determined |
| Bombs.MoveBombToFirstEmptyAsWritten | src/main/java/com/somerdin/minesweeper/game/Minefield.java:224-239 | as written: when a safe cell exists, the result is the input with exactly two mine flags changed, off the target and onto the first safe cell in row-major order (every earlier cell is a mine); counts and `bombCount` are untouched, so a consistent field becomes inconsistent; an all-mine board is unchanged |
| Bombs.MoveBombToFirstEmpty | src/main/java/com/somerdin/minesweeper/game/Minefield.java:224-239 | corrected: when a safe cell exists, the grid has exactly the mine flag moved from the target to the first safe cell in row-major order, states, dimensions and `bombCount` are kept, and the invariant is kept; an all-mine board is unchanged |
| Reveal.RevealCell | src/main/java/com/somerdin/minesweeper/game/Minefield.java:213-222 | a hidden safe cell becomes REVEALED; no other cell changes; the set of unrevealed cells shrinks by exactly that cell |
| Reveal.OnlyRevealsKeepsConsistency | src/main/java/com/somerdin/minesweeper/game/Minefield.java:249-283 | revealing safe cells keeps the count invariant |
| Reveal.RevealArea | src/main/java/com/somerdin/minesweeper/game/Minefield.java:249-283 | only safe cells become REVEALED and the target is revealed; a non-zero target is revealed alone; otherwise the dequeued cells are zero-count cells connected through neighbours, each with its whole safe block revealed, every dequeued cell after the seed was newly revealed (none was revealed before), every newly revealed cell lies next to a dequeued one, and every newly revealed zero-count cell is dequeued |
| Reveal.RevealAll | src/main/java/com/somerdin/minesweeper/game/Minefield.java:241-247 | every cell becomes REVEALED, mines untouched, invariant kept |
| Reveal.RevealRow | src/main/java/com/somerdin/minesweeper/game/Minefield.java:243-245 | one pass of the inner loop reveals exactly row i, on top of the rows already revealed |
| Reveal.FirstMove | src/main/java/com/somerdin/minesweeper/game/Minefield.java:195-200 | corrected first-move branch: succeeds exactly when the assertions of `revealArea` hold on the moved field (the chosen cell is safe after the move, and has a zero count or is not yet REVEALED); on success the chosen cell is a REVEALED safe cell, every changed cell is a REVEALED safe cell, the field stays consistent, the mines are unchanged or moved from the chosen cell to the first safe cell, and the flood fill is complete: a zero-count seed and every opened zero-count cell have their whole safe block revealed, a non-zero seed opens only itself, and every opened cell is the seed, next to it, or next to an opened zero-count cell |
| Reveal.ChooseCell | src/main/java/com/somerdin/minesweeper/game/Minefield.java:188-211 | corrected (through `Reveal.FirstMove`): invalid coordinates fail before any change; a first move succeeds exactly when the assertions of `revealArea` hold after the move, and then reveals the cell, leaves it safe, clears `firstMove`, opens only safe cells, keeps the mines or moves the chosen one to the first safe cell, and completes the flood fill as in `Reveal.FirstMove`; a later move on a mine reveals everything, marks it EXPLODED and sets GAME_LOST; a later safe move reveals only that cell |
| Reveal.ChooseCellAsWritten | src/main/java/com/somerdin/minesweeper/game/Minefield.java:195-200 | as written (through `Bombs.MoveBombToFirstEmptyAsWritten`): a first move on a mine of a consistent field always ends in the failed assertion of `revealArea`; a first move on a safe cell succeeds exactly when the assertions of `revealArea` hold, and then reveals it, keeps the result and the mines, opens only safe cells and completes the flood fill; invalid coordinates fail; a later move succeeds |
| Generation.BombsToPlaceAsWrittenIsAllButOne | src/main/java/com/somerdin/minesweeper/game/Minefield.java:33 | as written, every accepted board asks for `rows*cols - 1` mines, whatever the percentage |
| Generation.BombsToPlace | src/main/java/com/somerdin/minesweeper/game/Minefield.java:31-33 | corrected: between 1 and `tiles - 1`, and equal to `tiles*percent/100` when that is in range |
| Generation.BombsToPlaceDiffers | src/main/java/com/somerdin/minesweeper/game/Minefield.java:33 | the written count is never below the corrected one; EASY asks for 63 mines instead of 10 |
| Generation.PlaceMarkersAsWritten | src/main/java/com/somerdin/minesweeper/game/Minefield.java:40-44 | as written: throws iff `(n/rows, n%cols)` is off the board, and otherwise marks that single cell |
| Generation.HardPresetMarkersOutOfBounds | src/main/java/com/somerdin/minesweeper/game/Minefield.java:40-44 | on HARD the written loop indexes row 29 of 16 |
| Generation.WrittenMarkerCell | src/main/java/com/somerdin/minesweeper/game/Minefield.java:33-44 | as written, the loop always targets `(cols-1, cols-1)` |
| Generation.PlaceMarkers | src/main/java/com/somerdin/minesweeper/game/Minefield.java:40-44 | corrected: exactly the first n cells in row-major order are marked |
| Generation.IndexOfDivMod | src/main/java/com/somerdin/minesweeper/game/Minefield.java:40-44 | `(k/cols, k%cols)` is the on-board cell with row-major index k |
| Generation.SwapKeepsMarked | src/main/java/com/somerdin/minesweeper/game/Minefield.java:320-322 | a swap keeps a 0/-1 matrix and its number of -1 markers |
| Generation.SwapMarkedCount | src/main/java/com/somerdin/minesweeper/game/Minefield.java:320-322 | exchanging two entries of any matrix keeps its number of -1 entries |
| Generation.ShuffleAsWritten | src/main/java/com/somerdin/minesweeper/game/Minefield.java:307-328 | as written: throws iff some step picks a partner off the board; never throws on a square board; otherwise keeps the number of markers |
| Generation.ShuffleAsWrittenLeavesBoard | src/main/java/com/somerdin/minesweeper/game/Minefield.java:312-318 | on a 5x4 board (which gets past marker placement) the first step may draw column offset 4 from its range of 5, off the 4-column board |
| Generation.Shuffle | src/main/java/com/somerdin/minesweeper/game/Minefield.java:307-328 | corrected: always on the board, and keeps the matrix 0/-1 with the same number of markers |
| Generation.FillCell | src/main/java/com/somerdin/minesweeper/game/Minefield.java:50-55 | one step of the fill loop keeps the fill invariant |
| Generation.FillFromMarkers | src/main/java/com/somerdin/minesweeper/game/Minefield.java:47-57 | the result is consistent and fully hidden, its mines are exactly the marked cells, and `bombCount` is the number of markers |
| Generation.NewGameAsWritten | src/main/java/com/somerdin/minesweeper/game/Minefield.java:20-58 | as written: bad dimensions or percentages fail with their error; on valid arguments the only other failure is the out-of-bounds index; a board wider than tall throws; a board no wider than tall succeeds exactly when every shuffle partner lies on the board, so a square board never throws; a board that does not throw is consistent, hidden, a first move IN_PROGRESS, with exactly one mine |
| Generation.NewGame | src/main/java/com/somerdin/minesweeper/game/Minefield.java:20-58 | corrected: fails exactly on invalid arguments, with the dimension error first; otherwise gives a consistent hidden board on its first move with `BombsToPlace` mines |
| TextCodec.CellCharMeaning | src/main/java/com/somerdin/minesweeper/game/Minefield.java:289-305 | '#' iff HIDDEN; 'F' iff FLAGGED; 'B' iff another state on a mine; a digit iff another state on a safe cell, and the digit is its number of mined neighbours |
| TextCodec.RowTextHasNoBreak | src/main/java/com/somerdin/minesweeper/game/Minefield.java:145-149 | each row is `cols` characters without a line break |
| TextCodec.EncodeLines | src/main/java/com/somerdin/minesweeper/game/Minefield.java:141-154 | `toString` writes `rowCount()` lines read back as such by `readLine`; the first line is `colCount()` long |
| TextCodec.EncodeCells | src/main/java/com/somerdin/minesweeper/game/Minefield.java:141-154 | cell (i, j)'s character is character j of row i as the file constructor's character loop splits the text, with one empty row after the last separator |
| TextCodec.JoinRowsLineCount | src/main/java/com/somerdin/minesweeper/game/Minefield.java:69-75 | rows joined by a line separator give one `readLine` line per row, the first as long as row 0 |
| TextCodec.JoinRowsSegments | src/main/java/com/somerdin/minesweeper/game/Minefield.java:82-106 | cutting the joined text at '\n' gives exactly the rows, each followed by the separator without its final '\n' (nothing for "\n", a trailing '\r' for "\r\n"), and then one empty segment after the last separator |
| TextCodec.FirstLineLength | src/main/java/com/somerdin/minesweeper/game/Minefield.java:69-71 | the column count is the length of the text before the first line break |
| TextCodec.SegmentsJoin | src/main/java/com/somerdin/minesweeper/game/Minefield.java:82-87 | cutting the text at '\n' loses nothing, and no row holds a '\n' |
| TextCodec.PlaceCell | src/main/java/com/somerdin/minesweeper/game/Minefield.java:88-101 | `new Cell` then `addBomb` sets one cell and keeps the count invariant |
| TextCodec.DecodeChar | src/main/java/com/somerdin/minesweeper/game/Minefield.java:83-105 | a cell character beyond the board throws; any other non-cell character only moves the column |
| TextCodec.DecodeRow | src/main/java/com/somerdin/minesweeper/game/Minefield.java:82-106 | a row throws iff one of its cell characters is off the board |
| TextCodec.Decode | src/main/java/com/somerdin/minesweeper/game/Minefield.java:61-110 | an empty text fails; otherwise it throws iff a cell character lies off the board; else rows and cols come from `readLine`, 'b'/'B' are mines, 'B'/'X' are REVEALED and every other set cell is HIDDEN, the cells with no character are reported, the count invariant holds, and the result is a first move IN_PROGRESS |

## Left out

- File I/O: the `BufferedReader`s, the `IOException` wrapping and `main`. The file is its text, given as a `seq<char>`.
- `Math.random`: the shuffle takes a `draw` function whose values obey Java's truncating `(int) (Math.random() * range)`.
- `System.lineSeparator()`: the encoder takes the separator as a parameter. The line-structure lemmas cover "\n" and "\r\n".
- `revealCount` (Minefield.java lines 11 and 221): the counter is only ever decremented and is never read, so no behaviour depends on it.
- The two parallel queues of `revealArea` are one queue of positions.
- Java `assert` statements are preconditions. The model does not follow the behaviour of a run with assertions disabled.
- Bombs.AddBomb: the assertion of the public `addBomb` (Minefield.java line 157) is a precondition, so a call on a cell that already holds a mine is not modelled.
- Bombs.RemoveBomb: the assertion of the public `removeBomb` (Minefield.java line 173) is a precondition, so a call on a safe cell is not modelled.
- TextCodec.Decode: where Java leaves a null cell (a position that no cell character sets), the model keeps a hidden safe placeholder and reports the position in `unset`. The later `NullPointerException` on reading such a cell is not modelled.
- TextCodec.Decode: a character outside the Basic Multilingual Plane counts as one column here, while Java's `readLine().length()` and `read()` count two UTF-16 units for it, so on texts holding such characters the model's column count and column positions differ from Java's; texts within the Basic Multilingual Plane are modelled exactly.
- TextCodec.Encode: requires a consistent field, so every stored count is -1..8. `toString` also runs on fields that the as-written `removeBomb` or `moveBombToFirstEmpty` leave inconsistent, where it prints `(char) (count + '0')` for whatever count is stored (for a revealed safe cell holding -1, the character '/'); that output is not modelled.
- No encode/decode round trip: the encoder writes digits and 'F', which the decoder skips.
- Integer width: all products stay below 10^6 for accepted boards, so Java `int` never overflows here; the model uses unbounded integers.
- The GUI, rendering, timer and settings classes are not part of this model.

## Findings

| source | as written | input that shows it | evidently intended | confidence | as-written member | corrected member |
|---|---|---|---|---|---|---|
| src/main/java/com/somerdin/minesweeper/game/Minefield.java:33 | `max(rows*cols - 1, min(1, tiles*percentBomb))`: max and min are swapped and the percentage is not divided by 100 | EASY (8, 8, 16) asks for 63 mines | `min(tiles - 1, max(1, tiles*percentBomb/100))`, 10 for EASY | high, not executed | Generation.BombsToPlaceAsWrittenIsAllButOne | Generation.BombsToPlace |
| src/main/java/com/somerdin/minesweeper/game/Minefield.java:40-44 | every iteration writes cell `(bombsToPlace/rows, bombsToPlace%cols)` | HARD (16, 30): row 479/16 = 29 of 16 rows, out of bounds; a square board gets one marker | mark cell `(i/cols, i%cols)` for each i | high, not executed | Generation.PlaceMarkersAsWritten | Generation.PlaceMarkers |
| src/main/java/com/somerdin/minesweeper/game/Minefield.java:20-58 | the constructor as a whole | a board with cols > rows throws in the marker loop; a board with rows > cols can throw in the shuffle (see the 312-318 row); a square board always gets exactly one mine | `bombsToPlace` mines spread by the shuffle | high, not executed | Generation.NewGameAsWritten | Generation.NewGame |
| src/main/java/com/somerdin/minesweeper/game/Minefield.java:312-318 | the row offset is drawn from `cols - i` and the column offset from `rows - j` | 5x4 board (5 rows, 4 columns), step (0, 0), column offset 4 drawn from a range of 5: column 4 is off the board | ranges `rows - i` and `cols - j` | high, not executed | Generation.ShuffleAsWritten | Generation.Shuffle |
| src/main/java/com/somerdin/minesweeper/game/Minefield.java:172-186 | the loop recounts the centre but never lowers the neighbours' counts | a consistent field where the removed mine has a safe neighbour | each safe neighbour loses one | high, not executed | Bombs.RemoveBombAsWritten | Bombs.RemoveBomb |
| src/main/java/com/somerdin/minesweeper/game/Minefield.java:225-239 | moves the mine flag and leaves `bombValues` stale | a first move on a mine of any board with a safe cell | remove the mine and add it elsewhere with the counts | high, not executed | Bombs.MoveBombToFirstEmptyAsWritten | Bombs.MoveBombToFirstEmpty |
| src/main/java/com/somerdin/minesweeper/game/Minefield.java:195-200 | a first move on a mine calls `revealArea` on a cell whose count is still -1 | any first move on a mine: the assertion at line 250 fails (with assertions disabled, the now mine-free cell is revealed with count -1 and drawn as '/') | the first move always opens a safe cell | high, not executed | Reveal.ChooseCellAsWritten | Reveal.ChooseCell |

=== FILE: bombs.dfy ===
/**
 * Placing, removing and moving mines while the count matrix follows along:
 * `addBomb`, `removeBomb`, `moveBombToFirstEmpty` and `neighborCount`.
 */
module Bombs {
  import opened Grid

  /** `q` was visited by a row-major walk of the 3x3 block around `p` that has
      reached row `i`, column `j`. */
  predicate BlockVisited(p: Pos, i: int, j: int, q: Pos) {
    Near(p, q) && (q.row < i || (q.row == i && q.col < j))
  }

  /** The value `addBomb(t)` leaves at `q`: -1 on the new mine, +1 on every
      neighbour that is not already a mine, unchanged elsewhere. */
  function BumpedValue(values: map<Pos, int>, t: Pos, q: Pos): int
    requires q in values
  {
    if q == t then BombCell
    else if Near(t, q) && values[q] != BombCell then values[q] + 1
    else values[q]
  }

  /** What `addBomb(t)` does to a field. */
  ghost predicate AddBombEffect(f: Field, t: Pos, g: Field)
    requires Shaped(f) && t in f.grid
  {
    && g == f.(grid := g.grid, values := g.values, bombCount := f.bombCount + 1)
    && g.grid == f.grid[t := f.grid[t].(bomb := true)]
    && g.values.Keys == f.values.Keys
    && forall q :: q in f.values ==> g.values[q] == BumpedValue(f.values, t, q)
  }

  /** Adding a mine keeps the count right at one position `p`. */
  lemma AddBombCountAt(f: Field, t: Pos, g: Field, p: Pos)
    requires Shaped(f) && t in f.grid && !f.grid[t].bomb
    requires AddBombEffect(f, t, g) && CountsAgree(f.grid, f.values)
    requires p in g.grid
    ensures p in g.values
    ensures g.grid[p].bomb ==> g.values[p] == BombCell
    ensures g.values[p] != BombCell ==> g.values[p] == NeighbourMines(g.grid, p)
    ensures g.values[p] == BombCell <==> f.values[p] == BombCell || p == t
  {
    if p != t && f.values[p] != BombCell {
      if Adjacent(p, t) {
        assert MinesAround(g.grid, p) == MinesAround(f.grid, p) + {t};
      } else {
        assert MinesAround(g.grid, p) == MinesAround(f.grid, p);
      }
    }
  }

  /** Adding a mine keeps the count matrix right. */
  lemma AddBombKeepsCounts(f: Field, t: Pos, g: Field)
    requires Shaped(f) && t in f.grid && !f.grid[t].bomb
    requires AddBombEffect(f, t, g)
    ensures Shaped(g)
    ensures Mines(g.grid) == Mines(f.grid) + {t}
    ensures |Mines(g.grid)| == |Mines(f.grid)| + 1
    ensures CountsAgree(f.grid, f.values) ==> CountsAgree(g.grid, g.values)
    ensures CountsAgree(f.grid, f.values) ==>
              forall q :: q in g.values ==> (g.values[q] == BombCell <==> f.values[q] == BombCell || q == t)
    ensures Consistent(f) ==> Consistent(g)
  {
    MinesWith(f.grid, t);
    if CountsAgree(f.grid, f.values) {
      forall p | p in g.grid
        ensures p in g.values
        ensures g.grid[p].bomb ==> g.values[p] == BombCell
        ensures g.values[p] != BombCell ==> g.values[p] == NeighbourMines(g.grid, p)
        ensures g.values[p] == BombCell <==> f.values[p] == BombCell || p == t
      {
        AddBombCountAt(f, t, g, p);
      }
    }
  }

  /**
   * `addBomb`: the target becomes a mine with value -1, every in-bounds
   * non-mine cell of its 3x3 block gains one, and `bombCount` rises by one.
   * The target must not already be a mine (`addBomb` asserts this).
   */
  method AddBomb(f: Field, t: Pos) returns (g: Field)
    requires Shaped(f) && t in f.grid && !f.grid[t].bomb
    ensures AddBombEffect(f, t, g)
    ensures Shaped(g)
    ensures Mines(g.grid) == Mines(f.grid) + {t}
    ensures CountsAgree(f.grid, f.values) ==> CountsAgree(g.grid, g.values)
    ensures CountsAgree(f.grid, f.values) ==>
              forall q :: q in g.values ==> (g.values[q] == BombCell <==> f.values[q] == BombCell || q == t)
    ensures Consistent(f) ==> Consistent(g)
  {
    var grid := f.grid[t := f.grid[t].(bomb := true)];
    var values := f.values[t := BombCell];
    var i := t.row - 1;
    while i <= t.row + 1
      invariant t.row - 1 <= i <= t.row + 2
      invariant values.Keys == f.values.Keys
      invariant forall q :: q in values ==>
        values[q] == (if q == t || BlockVisited(t, i, t.col - 1, q) then BumpedValue(f.values, t, q) else f.values[q])
    {
      var j := t.col - 1;
      while j <= t.col + 1
        invariant t.col - 1 <= j <= t.col + 2
        invariant values.Keys == f.values.Keys
        invariant forall q :: q in values ==>
          values[q] == (if q == t || BlockVisited(t, i, j, q) then BumpedValue(f.values, t, q) else f.values[q])
      {
        var q := Pos(i, j);
        if ValidCell(f, q) && values[q] != BombCell {
          values := values[q := values[q] + 1];
        }
        j := j + 1;
      }
      i := i + 1;
    }
    g := f.(grid := grid, values := values, bombCount := f.bombCount + 1);
    AddBombKeepsCounts(f, t, g);
  }

  /** The mines of the 3x3 block around `p`, the centre included. */
  function BlockMines(grid: map<Pos, Cell>, p: Pos): set<Pos> {
    set q | q in grid && Near(p, q) && grid[q].bomb
  }

  function VisitedMines(grid: map<Pos, Cell>, p: Pos, i: int, j: int): set<Pos> {
    set q | q in grid && BlockVisited(p, i, j, q) && grid[q].bomb
  }

  lemma VisitedMinesStep(grid: map<Pos, Cell>, p: Pos, i: int, j: int)
    ensures VisitedMines(grid, p, i, j + 1) ==
      VisitedMines(grid, p, i, j)
      + (if Pos(i, j) in grid && Near(p, Pos(i, j)) && grid[Pos(i, j)].bomb then {Pos(i, j)} else {})
  {
  }

  /** The mines of a block split into the centre and its mined neighbours. */
  lemma BlockMinesSplit(grid: map<Pos, Cell>, p: Pos)
    requires p in grid
    ensures |BlockMines(grid, p)| == NeighbourMines(grid, p) + (if grid[p].bomb then 1 else 0)
  {
    if grid[p].bomb {
      assert BlockMines(grid, p) == MinesAround(grid, p) + {p};
    } else {
      assert BlockMines(grid, p) == MinesAround(grid, p);
    }
  }

  /** One row of `neighborCount`'s block loop. */
  method NeighborRow(f: Field, p: Pos, i: int, n0: int) returns (n: int)
    requires Shaped(f) && p.row - 1 <= i <= p.row + 1
    requires n0 == |VisitedMines(f.grid, p, i, p.col - 1)|
    ensures n == |VisitedMines(f.grid, p, i + 1, p.col - 1)|
  {
    n := n0;
    var j := p.col - 1;
    while j <= p.col + 1
      invariant p.col - 1 <= j <= p.col + 2
      invariant n == |VisitedMines(f.grid, p, i, j)|
    {
      var q := Pos(i, j);
      VisitedMinesStep(f.grid, p, i, j);
      assert q !in VisitedMines(f.grid, p, i, j);
      assert ValidCell(f, q) <==> q in f.grid;
      if ValidCell(f, q) && f.grid[q].bomb {
        n := n + 1;
      }
      j := j + 1;
    }
    assert VisitedMines(f.grid, p, i + 1, p.col - 1) == VisitedMines(f.grid, p, i, j);
  }

  /**
   * `neighborCount`: the number of mines in the 3x3 block around `p`, which
   * for a safe cell is its number of mined neighbours and for a mine is one
   * more.  Positions outside the grid are simply not counted.
   */
  method NeighborCount(f: Field, p: Pos) returns (n: int)
    requires Shaped(f)
    ensures n == |BlockMines(f.grid, p)|
    ensures p in f.grid ==> n == NeighbourMines(f.grid, p) + (if f.grid[p].bomb then 1 else 0)
  {
    n := 0;
    assert VisitedMines(f.grid, p, p.row - 1, p.col - 1) == {};
    var i := p.row - 1;
    while i <= p.row + 1
      invariant p.row - 1 <= i <= p.row + 2
      invariant n == |VisitedMines(f.grid, p, i, p.col - 1)|
    {
      n := NeighborRow(f, p, i, n);
      i := i + 1;
    }
    assert VisitedMines(f.grid, p, i, p.col - 1) == BlockMines(f.grid, p);
    if p in f.grid {
      BlockMinesSplit(f.grid, p);
    }
  }

  /** The positions `removeBomb`'s loop has counted into the centre so far:
      visited, not the centre itself, and holding -1. */
  function VisitedMarked(values: map<Pos, int>, t: Pos, i: int, j: int): set<Pos> {
    set q | q in values && BlockVisited(t, i, j, q) && q != t && values[q] == BombCell
  }

  /** What the loop of `removeBomb` computes for the centre `t`: the number
      of -1 entries around it. */
  function MarkedAround(values: map<Pos, int>, t: Pos): set<Pos> {
    VisitedMarked(values, t, t.row + 2, t.col - 1)
  }

  /** The -1 entries around `t` in a consistent field are its mined neighbours. */
  lemma MarkedAroundAreMines(f: Field, t: Pos)
    requires Consistent(f) && t in f.grid
    ensures MarkedAround(f.values, t) == MinesAround(f.grid, t)
  {
  }

  /** Removing a mine next to `p` lowers its number of mined neighbours by one. */
  lemma RemovedMineLowersCount(grid: map<Pos, Cell>, t: Pos, p: Pos)
    requires t in grid && grid[t].bomb && Adjacent(p, t)
    ensures NeighbourMines(grid[t := grid[t].(bomb := false)], p) == NeighbourMines(grid, p) - 1
    ensures NeighbourMines(grid, p) >= 1
  {
    assert MinesAround(grid[t := grid[t].(bomb := false)], p) == MinesAround(grid, p) - {t};
  }

  /** Removing a mine does not change the mined neighbours of a cell it is not next to. */
  lemma RemovedMineElsewhere(grid: map<Pos, Cell>, t: Pos, p: Pos)
    requires t in grid && !Adjacent(p, t)
    ensures MinesAround(grid[t := grid[t].(bomb := false)], p) == MinesAround(grid, p)
  {
  }

  lemma VisitedMarkedStep(values: map<Pos, int>, t: Pos, i: int, j: int)
    ensures VisitedMarked(values, t, i, j + 1) ==
      VisitedMarked(values, t, i, j)
      + (if Pos(i, j) in values && Near(t, Pos(i, j)) && Pos(i, j) != t && values[Pos(i, j)] == BombCell
         then {Pos(i, j)} else {})
  {
  }

  /** The count of `q` after `removeBomb` has (`lower`) or has not lowered it. */
  function Lowered(values: map<Pos, int>, q: Pos, lower: bool): int
    requires q in values
  {
    if lower && values[q] != BombCell then values[q] - 1 else values[q]
  }

  /** The state of `removeBomb`'s block loop once it has visited every block
      position before (i, j): the centre holds the number of -1 entries seen,
      every other entry is lowered exactly when visited (and `lower`). */
  ghost predicate BlockLoop(fv: map<Pos, int>, t: Pos, lower: bool, i: int, j: int, values: map<Pos, int>) {
    && values.Keys == fv.Keys
    && t in values
    && (forall q :: q in values && q != t ==> values[q] == Lowered(fv, q, lower && BlockVisited(t, i, j, q)))
    && values[t] == |VisitedMarked(fv, t, i, j)|
  }

  /** One step of the block loop at position q = (i, j), with `ValidCell`
      read as membership. */
  function BlockStep(values: map<Pos, int>, t: Pos, lower: bool, q: Pos): map<Pos, int>
    requires t in values
  {
    if q in values && q != t && values[q] == BombCell then values[t := values[t] + 1]
    else if lower && q in values && q != t then values[q := values[q] - 1]
    else values
  }

  lemma BlockStepKeepsLoop(fv: map<Pos, int>, t: Pos, lower: bool, i: int, j: int, values: map<Pos, int>)
    requires BlockLoop(fv, t, lower, i, j, values) && Near(t, Pos(i, j))
    ensures BlockLoop(fv, t, lower, i, j + 1, BlockStep(values, t, lower, Pos(i, j)))
  {
    var after := BlockStep(values, t, lower, Pos(i, j));
    VisitedMarkedStep(fv, t, i, j);
    forall q | q in after && q != t
      ensures after[q] == Lowered(fv, q, lower && BlockVisited(t, i, j + 1, q))
    {
      if q.row == i && q.col == j {
        assert q == Pos(i, j);
      }
    }
  }

  /** Past the last column of row i the loop has visited the row. */
  lemma BlockLoopNextRow(fv: map<Pos, int>, t: Pos, lower: bool, i: int, values: map<Pos, int>)
    requires BlockLoop(fv, t, lower, i, t.col + 2, values)
    ensures BlockLoop(fv, t, lower, i + 1, t.col - 1, values)
  {
    assert VisitedMarked(fv, t, i + 1, t.col - 1) == VisitedMarked(fv, t, i, t.col + 2);
    assert forall r :: Near(t, r) ==> (BlockVisited(t, i + 1, t.col - 1, r) <==> BlockVisited(t, i, t.col + 2, r));
  }

  /** One row of the loop over the 3x3 block shared by both versions of
      `removeBomb`: `lower` says whether non-mine neighbours are decremented. */
  method RemoveBombRow(f: Field, t: Pos, lower: bool, i: int, values0: map<Pos, int>) returns (values: map<Pos, int>)
    requires Shaped(f) && t.row - 1 <= i <= t.row + 1
    requires BlockLoop(f.values, t, lower, i, t.col - 1, values0)
    ensures BlockLoop(f.values, t, lower, i + 1, t.col - 1, values)
  {
    values := values0;
    var j := t.col - 1;
    while j <= t.col + 1
      invariant t.col - 1 <= j <= t.col + 2
      invariant BlockLoop(f.values, t, lower, i, j, values)
    {
      var q := Pos(i, j);
      assert ValidCell(f, q) <==> q in values;
      BlockStepKeepsLoop(f.values, t, lower, i, j, values);
      if ValidCell(f, q) && q != t && values[q] == BombCell {
        values := values[t := values[t] + 1];
      } else if lower && ValidCell(f, q) && q != t {
        values := values[q := values[q] - 1];
      }
      j := j + 1;
    }
    BlockLoopNextRow(f.values, t, lower, i, values);
  }

  /** The loop over the 3x3 block shared by both versions of `removeBomb`. */
  method RemoveBombLoop(f: Field, t: Pos, lower: bool) returns (values: map<Pos, int>)
    requires Shaped(f) && t in f.grid
    ensures values.Keys == f.values.Keys
    ensures values[t] == |MarkedAround(f.values, t)|
    ensures forall q :: q in values && q != t ==> values[q] == Lowered(f.values, q, lower && Adjacent(t, q))
  {
    values := f.values[t := 0];
    assert VisitedMarked(f.values, t, t.row - 1, t.col - 1) == {};
    var i := t.row - 1;
    while i <= t.row + 1
      invariant t.row - 1 <= i <= t.row + 2
      invariant BlockLoop(f.values, t, lower, i, t.col - 1, values)
    {
      values := RemoveBombRow(f, t, lower, i, values);
      i := i + 1;
    }
  }

  /**
   * `removeBomb` as written: the target stops being a mine and its own count is
   * recomputed from the -1 entries around it, but its neighbours' counts are
   * never lowered.  So whenever the mine had a safe neighbour, the field is no
   * longer consistent.
   */
  method RemoveBombAsWritten(f: Field, t: Pos) returns (g: Field)
    requires Shaped(f) && t in f.grid && f.grid[t].bomb
    ensures g == f.(grid := g.grid, values := g.values, bombCount := f.bombCount - 1)
    ensures g.grid == f.grid[t := f.grid[t].(bomb := false)]
    ensures Mines(g.grid) == Mines(f.grid) - {t}
    ensures g.values.Keys == f.values.Keys
    ensures g.values[t] == |MarkedAround(f.values, t)|
    ensures forall q :: q in g.values && q != t ==> g.values[q] == f.values[q]
    ensures Consistent(f) ==> g.values[t] == NeighbourMines(g.grid, t)
    ensures Consistent(f) && (exists q :: q in f.grid && Adjacent(t, q) && !f.grid[q].bomb) ==> !Consistent(g)
  {
    var values := RemoveBombLoop(f, t, false);
    g := f.(grid := f.grid[t := f.grid[t].(bomb := false)], values := values, bombCount := f.bombCount - 1);
    assert Mines(g.grid) == Mines(f.grid) - {t};
    if Consistent(f) {
      MarkedAroundAreMines(f, t);
      RemovedMineElsewhere(f.grid, t, t);
      if q :| q in f.grid && Adjacent(t, q) && !f.grid[q].bomb {
        RemovedMineLowersCount(f.grid, t, q);
        assert g.values[q] != NeighbourMines(g.grid, q);
      }
    }
  }

  /** The shape of the field the corrected `removeBomb` returns. */
  ghost predicate RemoveBombEffect(f: Field, t: Pos, g: Field)
    requires Shaped(f) && t in f.grid
  {
    && g == f.(grid := f.grid[t := f.grid[t].(bomb := false)], values := g.values, bombCount := f.bombCount - 1)
    && g.values.Keys == f.values.Keys
    && g.values[t] == |MarkedAround(f.values, t)|
    && forall q :: q in g.values && q != t ==> g.values[q] == Lowered(f.values, q, Adjacent(t, q))
  }

  /** The corrected `removeBomb` leaves the right count at one position `p`. */
  lemma RemoveBombCountAt(f: Field, t: Pos, g: Field, p: Pos)
    requires Consistent(f) && t in f.grid && f.grid[t].bomb
    requires RemoveBombEffect(f, t, g)
    requires p in g.grid
    ensures g.grid[p].bomb <==> g.values[p] == BombCell
    ensures !g.grid[p].bomb ==> g.values[p] == NeighbourMines(g.grid, p)
  {
    if p == t {
      MarkedAroundAreMines(f, t);
      RemovedMineElsewhere(f.grid, t, t);
    } else if !f.grid[p].bomb {
      if Adjacent(p, t) {
        RemovedMineLowersCount(f.grid, t, p);
      } else {
        RemovedMineElsewhere(f.grid, t, p);
      }
    }
  }

  /** The corrected `removeBomb` keeps the field consistent. */
  lemma RemoveBombKeepsConsistency(f: Field, t: Pos, g: Field)
    requires Consistent(f) && t in f.grid && f.grid[t].bomb
    requires RemoveBombEffect(f, t, g)
    ensures Consistent(g)
  {
    MinesWithout(f.grid, t);
    forall p | p in g.grid
      ensures CellAgrees(g, p)
    {
      RemoveBombCountAt(f, t, g, p);
    }
    ConsistentByCells(g);
  }

  /**
   * `removeBomb` with the neighbour update it is missing: every non-mine
   * neighbour loses one, and the centre gets the number of mines around it.
   */
  method RemoveBomb(f: Field, t: Pos) returns (g: Field)
    requires Shaped(f) && t in f.grid && f.grid[t].bomb
    ensures Shaped(g)
    ensures g.grid == f.grid[t := f.grid[t].(bomb := false)]
    ensures Mines(g.grid) == Mines(f.grid) - {t}
    ensures g == f.(grid := g.grid, values := g.values, bombCount := f.bombCount - 1)
    ensures Consistent(f) ==> Consistent(g)
  {
    var values := RemoveBombLoop(f, t, true);
    g := f.(grid := f.grid[t := f.grid[t].(bomb := false)], values := values, bombCount := f.bombCount - 1);
    assert Mines(g.grid) == Mines(f.grid) - {t};
    if Consistent(f) {
      RemoveBombKeepsConsistency(f, t, g);
    }
  }

  /** `e` is the first safe cell of `grid` in row-major order. */
  ghost predicate FirstSafe(grid: map<Pos, Cell>, e: Pos) {
    && e in grid && !grid[e].bomb
    && forall q :: q in grid && RowMajorBefore(q, e) ==> grid[q].bomb
  }

  /** Row-major order is total, so a grid has at most one first safe cell. */
  lemma FirstSafeUnique(grid: map<Pos, Cell>, e1: Pos, e2: Pos)
    requires FirstSafe(grid, e1) && FirstSafe(grid, e2)
    ensures e1 == e2
  {
  }

  /** `grid` with the mine flag taken off `t` and put on `e`. */
  function MovedMine(grid: map<Pos, Cell>, t: Pos, e: Pos): (r: map<Pos, Cell>)
    requires t in grid && e in grid
    ensures r.Keys == grid.Keys
  {
    grid[t := grid[t].(bomb := false)][e := grid[e].(bomb := true)]
  }

  /** The scan of `moveBombToFirstEmpty`: the first cell in row-major order
      that is not a mine, if there is one. */
  method FirstEmpty(f: Field) returns (found: bool, e: Pos)
    requires Shaped(f)
    ensures found <==> exists q :: q in f.grid && !f.grid[q].bomb
    ensures found ==> FirstSafe(f.grid, e)
  {
    var i := 0;
    while i < f.rows
      invariant 0 <= i <= f.rows
      invariant forall q :: q in f.grid && q.row < i ==> f.grid[q].bomb
    {
      var j := 0;
      while j < f.cols
        invariant 0 <= j <= f.cols
        invariant forall q :: q in f.grid && (q.row < i || (q.row == i && q.col < j)) ==> f.grid[q].bomb
      {
        if !f.grid[Pos(i, j)].bomb {
          return true, Pos(i, j);
        }
        j := j + 1;
      }
      i := i + 1;
    }
    found, e := false, Pos(0, 0);
  }

  /**
   * `moveBombToFirstEmpty` as written: the mine flag moves from `t` to the
   * first safe cell, but neither `bombValues` nor any count is touched.  In a
   * consistent field where the move happens, `t` keeps the value -1 without
   * being a mine, so the field is no longer consistent.
   */
  method MoveBombToFirstEmptyAsWritten(f: Field, t: Pos) returns (g: Field)
    requires Shaped(f) && t in f.grid && f.grid[t].bomb
    ensures g.values == f.values && g.bombCount == f.bombCount
    ensures forall q :: q in g.grid <==> q in f.grid
    ensures (forall q :: q in f.grid ==> f.grid[q].bomb) ==> g == f
    ensures (exists q :: q in f.grid && !f.grid[q].bomb) ==>
      exists e :: FirstSafe(f.grid, e) && g == f.(grid := MovedMine(f.grid, t, e))
    ensures (exists q :: q in f.grid && !f.grid[q].bomb) ==> !g.grid[t].bomb && |Mines(g.grid)| == |Mines(f.grid)|
    ensures Consistent(f) && (exists q :: q in f.grid && !f.grid[q].bomb) ==> !Consistent(g)
  {
    var found, e := FirstEmpty(f);
    g := f;
    if found {
      g := f.(grid := MovedMine(f.grid, t, e));
      assert Mines(g.grid) == Mines(f.grid) - {t} + {e};
      assert Consistent(f) ==> g.values[t] == BombCell && !g.grid[t].bomb;
    }
  }

  /** Removing the mine at `t` and adding one at the first safe cell `e` moves one flag. */
  lemma MoveBombResult(f: Field, t: Pos, e: Pos, g1: Field, g: Field)
    requires Shaped(f) && t in f.grid && f.grid[t].bomb && FirstSafe(f.grid, e)
    requires g1 == f.(grid := f.grid[t := f.grid[t].(bomb := false)], values := g1.values, bombCount := f.bombCount - 1)
    requires Mines(g1.grid) == Mines(f.grid) - {t}
    requires Shaped(g1) && AddBombEffect(g1, e, g) && Mines(g.grid) == Mines(g1.grid) + {e}
    ensures !g.grid[t].bomb && g == f.(grid := g.grid, values := g.values)
    ensures g.grid == MovedMine(f.grid, t, e) && Mines(g.grid) == Mines(f.grid) - {t} + {e}
    ensures forall q :: q in g.grid ==> g.grid[q].state == f.grid[q].state
  {
  }

  /**
   * `moveBombToFirstEmpty` with the counts kept: the mine at `t` is removed
   * and re-added at the first safe cell in row-major order, both through the
   * routines that maintain `bombValues`.  Display states never change.
   */
  method MoveBombToFirstEmpty(f: Field, t: Pos) returns (g: Field)
    requires Shaped(f) && t in f.grid && f.grid[t].bomb
    ensures Shaped(g) && g.rows == f.rows && g.cols == f.cols
    ensures g.firstMove == f.firstMove && g.result == f.result
    ensures forall q :: q in g.grid ==> g.grid[q].state == f.grid[q].state
    ensures (forall q :: q in f.grid ==> f.grid[q].bomb) ==> g == f
    ensures (exists q :: q in f.grid && !f.grid[q].bomb) ==>
      && !g.grid[t].bomb
      && g == f.(grid := g.grid, values := g.values)
      && exists e :: FirstSafe(f.grid, e) && g.grid == MovedMine(f.grid, t, e) && Mines(g.grid) == Mines(f.grid) - {t} + {e}
    ensures Consistent(f) ==> Consistent(g) && g.bombCount == f.bombCount
  {
    var found, e := FirstEmpty(f);
    g := f;
    if found {
      var g1 := RemoveBomb(f, t);
      g := AddBomb(g1, e);
      MoveBombResult(f, t, e, g1, g);
    }
  }
}

=== FILE: cell.dfy ===
/**
 * The stand-alone `Cell` class of the game package: a display status plus a
 * bomb status, with one guarded transition (a bomb may only be marked as
 * detonated on a revealed cell).
 */
module CellModel {
  import opened Results

  datatype CellStatus = Hidden | Revealed | Flagged | FlaggedQuestion

  /** `NoBomb` is `NONE` of `Cell.java`: the cell is not a mine. */
  datatype BombStatus = NoBomb | Undetonated | Detonated

  datatype Cell = Cell(cellStatus: CellStatus, bombStatus: BombStatus)

  /** The exception `setBombStatus` throws. */
  datatype CellError = IllegalArgument

  /** The invariant the guard in `setBombStatus` protects. */
  predicate DetonatedOnlyWhenRevealed(c: Cell) {
    c.bombStatus == Detonated ==> c.cellStatus == Revealed
  }

  /** The constructor: a fresh cell never holds a bomb. */
  function NewCell(status: CellStatus): (c: Cell)
    ensures c.cellStatus == status
    ensures !IsBomb(c)
    ensures DetonatedOnlyWhenRevealed(c)
  {
    Cell(status, NoBomb)
  }

  predicate IsBomb(c: Cell) {
    c.bombStatus != NoBomb
  }

  function SetBomb(c: Cell, bomb: bool): (r: Cell)
    ensures IsBomb(r) == bomb
    ensures r.bombStatus != Detonated
    ensures r.cellStatus == c.cellStatus
    ensures DetonatedOnlyWhenRevealed(c) ==> DetonatedOnlyWhenRevealed(r)
  {
    c.(bombStatus := if bomb then Undetonated else NoBomb)
  }

  function SetBombStatus(c: Cell, status: BombStatus): (r: Result<Cell, CellError>)
    ensures r.Failure? <==> status == Detonated && c.cellStatus != Revealed
    ensures r.Success? ==> r.value.bombStatus == status && r.value.cellStatus == c.cellStatus
    ensures r.Success? && DetonatedOnlyWhenRevealed(c) ==> DetonatedOnlyWhenRevealed(r.value)
  {
    if status == Detonated && c.cellStatus != Revealed then
      Failure(IllegalArgument)
    else
      Success(c.(bombStatus := status))
  }

  function SetCellStatus(c: Cell, status: CellStatus): (r: Cell)
    ensures r.cellStatus == status
    ensures r.bombStatus == c.bombStatus
    ensures IsBomb(r) == IsBomb(c)
  {
    c.(cellStatus := status)
  }

  /** Writing back the bomb flag a cell already has is the identity, except
      that it forgets a detonation. */
  lemma SetBombOwnFlag(c: Cell)
    ensures SetBomb(c, IsBomb(c)) == c <==> c.bombStatus != Detonated
  {
  }

  /** `setCellStatus` is unguarded: it keeps the detonation invariant exactly
      when it does not move a detonated cell away from Revealed. */
  lemma SetCellStatusDetonation(c: Cell, status: CellStatus)
    requires DetonatedOnlyWhenRevealed(c)
    ensures DetonatedOnlyWhenRevealed(SetCellStatus(c, status))
            <==> (c.bombStatus == Detonated ==> status == Revealed)
  {
  }
}

=== FILE: difficulty.dfy ===
/**
 * The `Difficulty` record: a board size and a mine density, validated by its
 * compact constructor, and the three built-in presets.
 */
module DifficultyModel {
  import opened Results

  const MinDimension: int := 4
  const MaxDimension: int := 100
  const MinBombPercent: int := 0
  const MaxBombPercent: int := 99

  datatype Difficulty = Difficulty(rows: int, cols: int, bombPercent: int)

  /** The two `IllegalArgumentException`s of the constructor, in the order it checks them. */
  datatype ConfigError = BadDimensions | BadBombRatio

  predicate DimensionsOk(rows: int, cols: int) {
    MinDimension <= rows <= MaxDimension && MinDimension <= cols <= MaxDimension
  }

  predicate BombPercentOk(bombPercent: int) {
    MinBombPercent <= bombPercent <= MaxBombPercent
  }

  /** A difficulty the constructor would accept. */
  predicate Valid(d: Difficulty) {
    DimensionsOk(d.rows, d.cols) && BombPercentOk(d.bombPercent)
  }

  /** The compact constructor: dimensions are checked first, then the ratio. */
  function MakeDifficulty(rows: int, cols: int, bombPercent: int): (r: Result<Difficulty, ConfigError>)
    ensures r.Success? <==> Valid(Difficulty(rows, cols, bombPercent))
    ensures r.Success? ==> r.value.rows == rows && r.value.cols == cols && r.value.bombPercent == bombPercent
    ensures r == Failure(BadDimensions) <==> !DimensionsOk(rows, cols)
    ensures r == Failure(BadBombRatio) <==> DimensionsOk(rows, cols) && !BombPercentOk(bombPercent)
  {
    if rows < 4 || cols < 4 || rows > 100 || cols > 100 then
      Failure(BadDimensions)
    else if bombPercent < 0 || bombPercent > 99 then
      Failure(BadBombRatio)
    else
      Success(Difficulty(rows, cols, bombPercent))
  }

  const Easy: Difficulty := Difficulty(8, 8, 16)
  const Medium: Difficulty := Difficulty(16, 16, 16)
  const Hard: Difficulty := Difficulty(16, 30, 21)

  /** Every preset is accepted by the constructor and keeps its own fields. */
  lemma PresetsAreValid()
    ensures MakeDifficulty(8, 8, 16) == Success(Easy)
    ensures MakeDifficulty(16, 16, 16) == Success(Medium)
    ensures MakeDifficulty(16, 30, 21) == Success(Hard)
  {
  }
}

=== FILE: generation.dfy ===
/**
 * The random constructor of `Minefield`: how many mines to place, the 0/-1
 * marker matrix, its shuffle, and the fill loop that turns markers into mines.
 * `Math.random` is replaced by a `draw` parameter that supplies, for each
 * step of the shuffle, the two truncated products `(int) (Math.random() * range)`.
 */
module Generation {
  import opened Results
  import opened Grid
  import Bombs
  import DifficultyModel

  /** Why the random constructor throws. */
  datatype GenError = Config(error: DifficultyModel.ConfigError) | IndexOutOfBounds

  /** The marked positions of a marker matrix. */
  function Marked(m: map<Pos, int>): set<Pos> {
    set p | p in m && m[p] == BombCell
  }

  /** A 0/-1 matrix over the rows x cols rectangle. */
  ghost predicate MarkerMatrix(m: map<Pos, int>, rows: int, cols: int) {
    && m.Keys == AllPositions(rows, cols)
    && forall p :: p in m ==> m[p] == 0 || m[p] == BombCell
  }

  function Max(a: int, b: int): int { if a >= b then a else b }
  function Min(a: int, b: int): int { if a <= b then a else b }

  // ---------------------------------------------------------------- mine count

  /** `bombsToPlace` as written: `max(rows * cols - 1, min(1, tiles * percentBomb))`. */
  function BombsToPlaceAsWritten(rows: int, cols: int, percentBomb: int): int {
    Max(rows * cols - 1, Min(1, rows * cols * percentBomb))
  }

  /** As written, the density is ignored: every accepted board asks for all
      cells but one to be mines. */
  lemma BombsToPlaceAsWrittenIsAllButOne(rows: int, cols: int, percentBomb: int)
    requires DifficultyModel.DimensionsOk(rows, cols) && DifficultyModel.BombPercentOk(percentBomb)
    ensures BombsToPlaceAsWritten(rows, cols, percentBomb) == rows * cols - 1
  {
    assert rows * cols >= 4 * cols >= 16;
  }

  /** The clamp the comment in `Minefield.java` asks for: `percentBomb` percent of the
      tiles, rounded down, kept between 1 and `tiles - 1`. */
  function BombsToPlace(rows: int, cols: int, percentBomb: int): (n: int)
    requires DifficultyModel.DimensionsOk(rows, cols) && DifficultyModel.BombPercentOk(percentBomb)
    ensures 1 <= n < rows * cols
    ensures 1 <= rows * cols * percentBomb / 100 < rows * cols ==> n == rows * cols * percentBomb / 100
    ensures rows * cols * percentBomb / 100 < 1 ==> n == 1
  {
    var tiles := rows * cols;
    MulAtLeast(rows, cols);
    Min(tiles - 1, Max(1, tiles * percentBomb / 100))
  }

  /** With a density that asks for fewer than all-but-one cells, the written
      formula asks for more mines than the clamp. */
  lemma BombsToPlaceDiffers(rows: int, cols: int, percentBomb: int)
    requires DifficultyModel.DimensionsOk(rows, cols) && DifficultyModel.BombPercentOk(percentBomb)
    ensures BombsToPlace(rows, cols, percentBomb) <= BombsToPlaceAsWritten(rows, cols, percentBomb)
    ensures BombsToPlaceAsWritten(8, 8, 16) == 63 && BombsToPlace(8, 8, 16) == 10
  {
    BombsToPlaceAsWrittenIsAllButOne(rows, cols, percentBomb);
    BombsToPlaceAsWrittenIsAllButOne(8, 8, 16);
  }

  // ---------------------------------------------------------------- markers

  /** The all-zero matrix `new int[rows][cols]`. */
  function ZeroMatrix(rows: int, cols: int): (m: map<Pos, int>)
    ensures MarkerMatrix(m, rows, cols) && Marked(m) == {}
  {
    map p | p in AllPositions(rows, cols) :: 0
  }

  /** The marker loop as written: every iteration stores -1 at the same
      cell `(n / rows, n % cols)`, and Java throws when that row is out of
      range. */
  method PlaceMarkersAsWritten(rows: int, cols: int, n: int) returns (r: Result<map<Pos, int>, GenError>)
    requires 1 <= rows && 1 <= cols
    ensures r.Failure? <==> n > 0 && !InRange(rows, cols, Pos(n / rows, n % cols))
    ensures r.Failure? ==> r.error == IndexOutOfBounds
    ensures r.Success? ==> MarkerMatrix(r.value, rows, cols)
    ensures r.Success? ==> Marked(r.value) == if n > 0 then {Pos(n / rows, n % cols)} else {}
  {
    var markers := ZeroMatrix(rows, cols);
    var row := n / rows;
    var col := n % cols;
    var k := 0;
    while k < n
      invariant 0 <= k && (k <= n || k == 0)
      invariant MarkerMatrix(markers, rows, cols)
      invariant Marked(markers) == if k > 0 then {Pos(row, col)} else {}
      invariant k > 0 ==> InRange(rows, cols, Pos(row, col))
    {
      if !(0 <= row < rows) {
        return Failure(IndexOutOfBounds);
      }
      markers := markers[Pos(row, col) := BombCell];
      assert Marked(markers) == {Pos(row, col)};
      k := k + 1;
    }
    return Success(markers);
  }

  /** On the Hard preset the written loop indexes row 29 of a 16-row board. */
  lemma HardPresetMarkersOutOfBounds()
    ensures BombsToPlaceAsWritten(16, 30, 21) == 479
    ensures !InRange(16, 30, Pos(479 / 16, 479 % 30))
  {
  }

  /** Row-major index of a position. */
  function Index(p: Pos, cols: int): int {
    p.row * cols + p.col
  }

  /** The loop `Minefield.java` evidently intends: -1 in the first n cells in
      row-major order, `(k / cols, k % cols)` for each k < n. */
  method PlaceMarkers(rows: int, cols: int, n: int) returns (markers: map<Pos, int>)
    requires 1 <= rows && 1 <= cols && 0 <= n <= rows * cols
    ensures MarkerMatrix(markers, rows, cols)
    ensures forall p :: p in markers ==> (markers[p] == BombCell <==> Index(p, cols) < n)
    ensures |Marked(markers)| == n
  {
    markers := ZeroMatrix(rows, cols);
    for k := 0 to n
      invariant PrefixMarked(markers, rows, cols, k)
    {
      markers := MarkNext(markers, rows, cols, k);
    }
  }

  /** The first k cells in row-major order are marked, and only they. */
  ghost predicate PrefixMarked(m: map<Pos, int>, rows: int, cols: int, k: int) {
    && MarkerMatrix(m, rows, cols)
    && (forall p :: p in m ==> (m[p] == BombCell <==> Index(p, cols) < k))
    && |Marked(m)| == k
  }

  /** One step of the intended loop. */
  function MarkNext(m: map<Pos, int>, rows: int, cols: int, k: int): (r: map<Pos, int>)
    requires 1 <= rows && 1 <= cols && 0 <= k < rows * cols
    requires PrefixMarked(m, rows, cols, k)
    ensures PrefixMarked(r, rows, cols, k + 1)
  {
    var p := Pos(k / cols, k % cols);
    IndexOfDivMod(k, rows, cols);
    var r := m[p := BombCell];
    assert Marked(r) == Marked(m) + {p} by {
      forall q | q in r
        ensures q in Marked(r) <==> q in Marked(m) || q == p
      {
        if q != p { assert r[q] == m[q]; }
      }
    }
    assert forall q :: q in r ==> (r[q] == BombCell <==> Index(q, cols) < k + 1) by {
      forall q | q in r
        ensures r[q] == BombCell <==> Index(q, cols) < k + 1
      {
        if q != p {
          IndexInjective(q, p, cols);
        }
      }
    }
    r
  }

  /** Distinct in-range columns give distinct row-major indices. */
  lemma IndexInjective(p: Pos, q: Pos, cols: int)
    requires 0 <= p.col < cols && 0 <= q.col < cols && p != q
    ensures Index(p, cols) != Index(q, cols)
  {
    if p.row < q.row {
      RowsApart(p, q, cols);
    } else if q.row < p.row {
      RowsApart(q, p, cols);
    }
  }

  /** A later row starts at least a whole row of indices further on. */
  lemma RowsApart(p: Pos, q: Pos, cols: int)
    requires 0 <= p.col < cols && 0 <= q.col && p.row < q.row
    ensures Index(p, cols) < Index(q, cols)
  {
    var d := q.row - p.row;
    assert q.row * cols == p.row * cols + d * cols;
    MulAtLeast(d, cols);
  }

  /** `(k / cols, k % cols)` is the in-range position whose index is k. */
  lemma IndexOfDivMod(k: int, rows: int, cols: int)
    requires 1 <= rows && 1 <= cols && 0 <= k < rows * cols
    ensures InRange(rows, cols, Pos(k / cols, k % cols))
    ensures Index(Pos(k / cols, k % cols), cols) == k
  {
    var q, s := k / cols, k % cols;
    assert k == q * cols + s;
  }

  // ---------------------------------------------------------------- shuffle

  /** `(int) (Math.random() * range)`: Java truncates toward zero, so the
      value lies in [0, range) for a positive range, in (range, 0] for a
      negative one, and is 0 for an empty range. */
  predicate TruncatedDraw(d: int, range: int) {
    if range > 0 then 0 <= d < range
    else if range < 0 then range < d <= 0
    else d == 0
  }

  /** Exchange the entries at a and b. */
  function Swap(m: map<Pos, int>, a: Pos, b: Pos): map<Pos, int>
    requires a in m && b in m
  {
    m[a := m[b]][b := m[a]]
  }

  /** A swap keeps the matrix a 0/-1 matrix with as many marked cells. */
  lemma SwapKeepsMarked(m: map<Pos, int>, rows: int, cols: int, a: Pos, b: Pos)
    requires MarkerMatrix(m, rows, cols) && a in m && b in m
    ensures MarkerMatrix(Swap(m, a, b), rows, cols)
    ensures |Marked(Swap(m, a, b))| == |Marked(m)|
  {
    assert Swap(m, a, b).Keys == m.Keys;
    SwapMarkedCount(m, a, b);
  }

  /** Writing one entry marks or unmarks exactly that position. */
  lemma MarkedUpdate(m: map<Pos, int>, p: Pos, v: int)
    ensures Marked(m[p := v]) == if v == BombCell then Marked(m) + {p} else Marked(m) - {p}
  {
    var l := Marked(m[p := v]);
    var r := if v == BombCell then Marked(m) + {p} else Marked(m) - {p};
    forall q ensures q in l <==> q in r {
      if q == p {
        assert q in m[p := v] && m[p := v][q] == v;
      } else {
        assert q in m[p := v] <==> q in m;
      }
    }
  }

  /** Exchanging two entries moves a marker at most, never adds or drops one. */
  lemma SwapMarkedCount(m: map<Pos, int>, a: Pos, b: Pos)
    requires a in m && b in m
    ensures |Marked(Swap(m, a, b))| == |Marked(m)|
  {
    var m1 := m[a := m[b]];
    MarkedUpdate(m, a, m[b]);
    MarkedUpdate(m1, b, m[a]);
    if a == b {
      assert Swap(m, a, b) == m;
    } else if m[a] == BombCell && m[b] == BombCell {
      assert Marked(Swap(m, a, b)) == Marked(m);
    } else if m[a] == BombCell {
      assert a in Marked(m) && b !in Marked(m);
      assert Marked(Swap(m, a, b)) == Marked(m) - {a} + {b};
    } else if m[b] == BombCell {
      assert b in Marked(m) && a !in Marked(m);
      assert Marked(Swap(m, a, b)) == Marked(m) + {a} - {b};
    } else {
      assert Marked(Swap(m, a, b)) == Marked(m) - {a} - {b};
      assert a !in Marked(m) && b !in Marked(m);
      assert Marked(m) - {a} - {b} == Marked(m);
    }
  }

  /** The cell a step of the shuffle at (i, j) swaps with. */
  function Partner(i: int, j: int, draw: (int, int) -> (int, int)): Pos {
    Pos(i + draw(i, j).0, j + draw(i, j).1)
  }

  /** All steps of the shuffle before (i, j) pick a cell on the board. */
  ghost predicate PartnersInRange(rows: int, cols: int, draw: (int, int) -> (int, int), i: int, j: int) {
    forall p: Pos :: 0 <= p.row < rows && 0 <= p.col < cols && RowMajorBefore(p, Pos(i, j)) ==>
      InRange(rows, cols, Partner(p.row, p.col, draw))
  }

  lemma PartnersStep(rows: int, cols: int, draw: (int, int) -> (int, int), i: int, j: int)
    requires PartnersInRange(rows, cols, draw, i, j) && InRange(rows, cols, Partner(i, j, draw))
    ensures PartnersInRange(rows, cols, draw, i, j + 1)
  {
    forall p: Pos | 0 <= p.row < rows && 0 <= p.col < cols && RowMajorBefore(p, Pos(i, j + 1))
      ensures InRange(rows, cols, Partner(p.row, p.col, draw))
    {
      if !RowMajorBefore(p, Pos(i, j)) {
        assert p == Pos(i, j);
      }
    }
  }

  lemma PartnersNextRow(rows: int, cols: int, draw: (int, int) -> (int, int), i: int)
    requires PartnersInRange(rows, cols, draw, i, cols)
    ensures PartnersInRange(rows, cols, draw, i + 1, 0)
  {
  }

  /** On a square board the swapped ranges `cols - i` and `rows - j` are the
      right ones after all. */
  lemma SquarePartner(n: int, i: int, j: int, d: (int, int))
    requires 0 <= i < n && 0 <= j < n
    requires TruncatedDraw(d.0, n - i) && TruncatedDraw(d.1, n - j)
    ensures InRange(n, n, Pos(i + d.0, j + d.1))
  {
  }

  /** `shuffle2DArray` as written: the row offset is drawn from a range of
      `cols - i` and the column offset from `rows - j`; a partner off the
      board makes Java throw. */
  method ShuffleAsWritten(m: map<Pos, int>, rows: int, cols: int, draw: (int, int) -> (int, int))
    returns (r: Result<map<Pos, int>, GenError>)
    requires 1 <= rows && 1 <= cols && MarkerMatrix(m, rows, cols)
    requires forall i, j :: 0 <= i < rows && 0 <= j < cols ==>
      TruncatedDraw(draw(i, j).0, cols - i) && TruncatedDraw(draw(i, j).1, rows - j)
    ensures r.Failure? <==> !PartnersInRange(rows, cols, draw, rows, 0)
    ensures r.Failure? ==> r.error == IndexOutOfBounds
    ensures r.Success? ==> MarkerMatrix(r.value, rows, cols) && |Marked(r.value)| == |Marked(m)|
    ensures rows == cols ==> r.Success?
  {
    var cur := m;
    for i := 0 to rows
      invariant MarkerMatrix(cur, rows, cols) && |Marked(cur)| == |Marked(m)|
      invariant PartnersInRange(rows, cols, draw, i, 0)
    {
      for j := 0 to cols
        invariant MarkerMatrix(cur, rows, cols) && |Marked(cur)| == |Marked(m)|
        invariant PartnersInRange(rows, cols, draw, i, j)
      {
        var q := Partner(i, j, draw);
        if rows == cols {
          SquarePartner(rows, i, j, draw(i, j));
        }
        if !InRange(rows, cols, q) {
          assert !PartnersInRange(rows, cols, draw, rows, 0) by {
            assert RowMajorBefore(Pos(i, j), Pos(rows, 0));
          }
          return Failure(IndexOutOfBounds);
        }
        SwapKeepsMarked(cur, rows, cols, Pos(i, j), q);
        cur := Swap(cur, Pos(i, j), q);
        PartnersStep(rows, cols, draw, i, j);
      }
      PartnersNextRow(rows, cols, draw, i);
    }
    return Success(cur);
  }

  /** A 5 x 4 board (5 rows, 4 columns), which gets past marker placement:
      at step (0, 0) the written code may draw a column offset of 4 from its
      range of 5, one past the last column. */
  lemma ShuffleAsWrittenLeavesBoard()
    ensures TruncatedDraw(0, 4 - 0) && TruncatedDraw(4, 5 - 0)
    ensures !InRange(5, 4, Partner(0, 0, (i, j) => (0, 4)))
  {
  }

  /** The shuffle `Minefield.java` evidently intends: offsets drawn from
      `rows - i` and `cols - j`, so every partner lies on the board. */
  method Shuffle(m: map<Pos, int>, rows: int, cols: int, draw: (int, int) -> (int, int))
    returns (r: map<Pos, int>)
    requires 1 <= rows && 1 <= cols && MarkerMatrix(m, rows, cols)
    requires forall i, j :: 0 <= i < rows && 0 <= j < cols ==>
      TruncatedDraw(draw(i, j).0, rows - i) && TruncatedDraw(draw(i, j).1, cols - j)
    ensures MarkerMatrix(r, rows, cols) && |Marked(r)| == |Marked(m)|
  {
    r := m;
    for i := 0 to rows
      invariant MarkerMatrix(r, rows, cols) && |Marked(r)| == |Marked(m)|
    {
      for j := 0 to cols
        invariant MarkerMatrix(r, rows, cols) && |Marked(r)| == |Marked(m)|
      {
        var q := Partner(i, j, draw);
        SwapKeepsMarked(r, rows, cols, Pos(i, j), q);
        r := Swap(r, Pos(i, j), q);
      }
    }
  }

  // ---------------------------------------------------------------- fill

  /** Cell p once the fill loop has passed position e: hidden, a mine
      exactly when it was passed and is marked, and -1 in the count matrix
      exactly when it is marked. */
  ghost predicate CellFilled(f: Field, markers: map<Pos, int>, p: Pos, e: Pos)
    requires p in f.grid && p in f.values && p in markers
  {
    && f.grid[p] == Cell(Hidden, RowMajorBefore(p, e) && markers[p] == BombCell)
    && (f.values[p] == BombCell <==> markers[p] == BombCell)
  }

  /** The fill loop has handled every cell before (i, j) in row-major order,
      and the count matrix is right wherever it does not say -1. */
  ghost predicate Filled(f: Field, markers: map<Pos, int>, rows: int, cols: int, i: int, j: int) {
    && Shaped(f) && f.rows == rows && f.cols == cols
    && f.firstMove && f.result == InProgress
    && MarkerMatrix(markers, rows, cols)
    && (forall p :: p in f.grid ==> CellFilled(f, markers, p, Pos(i, j)))
    && CountsAgree(f.grid, f.values)
    && f.bombCount == |Mines(f.grid)|
  }

  /** The field before the fill loop: every cell a hidden non-mine, the
      count matrix holding the shuffled markers. */
  function Unfilled(rows: int, cols: int, markers: map<Pos, int>): (f: Field)
    requires 4 <= rows && 4 <= cols && MarkerMatrix(markers, rows, cols)
    ensures Filled(f, markers, rows, cols, 0, 0)
  {
    var f := Field(rows, cols, map p | p in AllPositions(rows, cols) :: Cell(Hidden, false), markers, 0, true, InProgress);
    assert Mines(f.grid) == {};
    assert forall p :: p in f.grid ==> MinesAround(f.grid, p) == {};
    f
  }

  /** Passing an unmarked cell changes nothing. */
  lemma FillSkipStep(f: Field, markers: map<Pos, int>, rows: int, cols: int, i: int, j: int)
    requires 0 <= i < rows && 0 <= j < cols
    requires Filled(f, markers, rows, cols, i, j) && markers[Pos(i, j)] != BombCell
    ensures Filled(f, markers, rows, cols, i, j + 1)
  {
    forall p | p in f.grid
      ensures CellFilled(f, markers, p, Pos(i, j + 1))
    {
      assert CellFilled(f, markers, p, Pos(i, j));
      assert markers[p] == BombCell ==> (RowMajorBefore(p, Pos(i, j + 1)) <==> RowMajorBefore(p, Pos(i, j)));
    }
  }

  /** Passing a marked cell with `addBomb` keeps the fill invariant. */
  lemma FillMineStep(f: Field, g: Field, markers: map<Pos, int>, rows: int, cols: int, i: int, j: int)
    requires 0 <= i < rows && 0 <= j < cols
    requires Filled(f, markers, rows, cols, i, j) && markers[Pos(i, j)] == BombCell
    requires Bombs.AddBombEffect(f, Pos(i, j), g) && Shaped(g) && CountsAgree(g.grid, g.values)
    requires forall q :: q in g.values ==> (g.values[q] == BombCell <==> f.values[q] == BombCell || q == Pos(i, j))
    requires Mines(g.grid) == Mines(f.grid) + {Pos(i, j)}
    ensures Filled(g, markers, rows, cols, i, j + 1)
  {
    var t := Pos(i, j);
    assert CellFilled(f, markers, t, t);
    assert t !in Mines(f.grid);
    forall p | p in g.grid
      ensures CellFilled(g, markers, p, Pos(i, j + 1))
    {
      assert CellFilled(f, markers, p, t);
      if p.row == i && p.col == j {
        assert p == t;
      } else {
        assert RowMajorBefore(p, Pos(i, j + 1)) <==> RowMajorBefore(p, t);
      }
    }
  }

  /** One cell of the fill loop: reset it to a hidden non-mine, then add a
      mine if its marker says so. */
  method FillCell(f: Field, markers: map<Pos, int>, rows: int, cols: int, i: int, j: int) returns (g: Field)
    requires 0 <= i < rows && 0 <= j < cols
    requires Filled(f, markers, rows, cols, i, j)
    ensures Filled(g, markers, rows, cols, i, j + 1)
  {
    var t := Pos(i, j);
    assert CellFilled(f, markers, t, t);
    g := f.(grid := f.grid[t := Cell(Hidden, false)]);
    assert g == f;
    if g.values[t] == BombCell {
      g := Bombs.AddBomb(f, t);
      FillMineStep(f, g, markers, rows, cols, i, j);
    } else {
      FillSkipStep(f, markers, rows, cols, i, j);
    }
  }

  /** Past the end of row i the loop has passed all of it. */
  lemma FillNextRow(f: Field, markers: map<Pos, int>, rows: int, cols: int, i: int)
    requires Filled(f, markers, rows, cols, i, cols)
    ensures Filled(f, markers, rows, cols, i + 1, 0)
  {
    forall p | p in f.grid
      ensures CellFilled(f, markers, p, Pos(i + 1, 0))
    {
      assert CellFilled(f, markers, p, Pos(i, cols));
      assert RowMajorBefore(p, Pos(i, cols)) <==> RowMajorBefore(p, Pos(i + 1, 0));
    }
  }

  /** After the last row the mines are exactly the marked cells. */
  lemma FillDone(f: Field, markers: map<Pos, int>, rows: int, cols: int)
    requires Filled(f, markers, rows, cols, rows, 0)
    ensures Consistent(f)
    ensures forall p :: p in f.grid ==> f.grid[p].state == Hidden
    ensures Mines(f.grid) == Marked(markers)
  {
    forall p | p in f.grid
      ensures f.grid[p] == Cell(Hidden, markers[p] == BombCell)
    {
      assert CellFilled(f, markers, p, Pos(rows, 0));
    }
    assert Mines(f.grid) == Marked(markers);
  }

  /** The fill loop of the random constructor: the result is a consistent,
      fully hidden field whose mines are exactly the marked cells. */
  method FillFromMarkers(rows: int, cols: int, markers: map<Pos, int>) returns (f: Field)
    requires 4 <= rows && 4 <= cols && MarkerMatrix(markers, rows, cols)
    ensures Consistent(f) && f.rows == rows && f.cols == cols
    ensures f.firstMove && f.result == InProgress
    ensures forall p :: p in f.grid ==> f.grid[p].state == Hidden
    ensures Mines(f.grid) == Marked(markers)
    ensures f.bombCount == |Marked(markers)|
  {
    f := Unfilled(rows, cols, markers);
    for i := 0 to rows
      invariant Filled(f, markers, rows, cols, i, 0)
    {
      for j := 0 to cols
        invariant Filled(f, markers, rows, cols, i, j)
      {
        f := FillCell(f, markers, rows, cols, i, j);
      }
      FillNextRow(f, markers, rows, cols, i);
    }
    FillDone(f, markers, rows, cols);
  }

  // ---------------------------------------------------------------- constructor

  /** `a == q * d + s` with `0 <= s < d` pins down `a / d` and `a % d`. */
  lemma DivModUnique(a: int, d: int, q: int, s: int)
    requires 0 < d && 0 <= s < d && a == q * d + s
    ensures a / d == q && a % d == s
  {
    var q', s' := a / d, a % d;
    assert a == q' * d + s';
    if q' < q {
      MulAtLeast(q - q', d);
    } else if q < q' {
      MulAtLeast(q' - q, d);
    }
  }

  /** As written, the marker loop always targets `(cols - 1, cols - 1)`:
      on the board when `cols <= rows`, past the last row otherwise. */
  lemma WrittenMarkerCell(rows: int, cols: int, percentBomb: int)
    requires DifficultyModel.DimensionsOk(rows, cols) && DifficultyModel.BombPercentOk(percentBomb)
    ensures var n := BombsToPlaceAsWritten(rows, cols, percentBomb);
      n > 0 && n / rows == cols - 1 && n % cols == cols - 1
  {
    BombsToPlaceAsWrittenIsAllButOne(rows, cols, percentBomb);
    var n := rows * cols - 1;
    assert n == (cols - 1) * rows + (rows - 1);
    DivModUnique(n, rows, cols - 1, rows - 1);
    assert n == (rows - 1) * cols + (cols - 1);
    DivModUnique(n, cols, rows - 1, cols - 1);
  }

  /** The random constructor as written.  Boards wider than they are tall
      throw from the marker loop; boards taller than they are wide can throw
      from the shuffle (see `ShuffleAsWrittenLeavesBoard`); square boards
      always get through.  Every board that gets through has exactly one
      mine, because the loop marks a single cell and the shuffle and the fill
      keep the number of marked cells. */
  method NewGameAsWritten(rows: int, cols: int, percentBomb: int, draw: (int, int) -> (int, int))
    returns (r: Result<Field, GenError>)
    requires forall i, j :: 0 <= i < rows && 0 <= j < cols ==>
      TruncatedDraw(draw(i, j).0, cols - i) && TruncatedDraw(draw(i, j).1, rows - j)
    ensures var d := DifficultyModel.MakeDifficulty(rows, cols, percentBomb);
      d.Failure? ==> r == Failure(Config(d.error))
    ensures r.Success? ==> Consistent(r.value) && r.value.rows == rows && r.value.cols == cols
    ensures r.Success? ==> cols <= rows && r.value.bombCount == 1
    ensures r.Success? ==> && r.value.firstMove && r.value.result == InProgress
                           && (forall p :: p in r.value.grid ==> r.value.grid[p].state == Hidden)
    ensures DifficultyModel.DimensionsOk(rows, cols) && DifficultyModel.BombPercentOk(percentBomb) ==>
      && (r.Failure? ==> r == Failure(IndexOutOfBounds))
      && (cols > rows ==> r.Failure?)
      && (cols <= rows ==> (r.Success? <==> PartnersInRange(rows, cols, draw, rows, 0)))
      && (cols == rows ==> r.Success?)
  {
    var d := DifficultyModel.MakeDifficulty(rows, cols, percentBomb);
    if d.Failure? {
      return Failure(Config(d.error));
    }
    WrittenMarkerCell(rows, cols, percentBomb);
    var n := BombsToPlaceAsWritten(rows, cols, percentBomb);
    var placed := PlaceMarkersAsWritten(rows, cols, n);
    if placed.Failure? {
      return Failure(placed.error);
    }
    assert |Marked(placed.value)| == 1;
    var shuffled := ShuffleAsWritten(placed.value, rows, cols, draw);
    if shuffled.Failure? {
      return Failure(shuffled.error);
    }
    var f := FillFromMarkers(rows, cols, shuffled.value);
    return Success(f);
  }

  /** The random constructor as evidently intended: the clamped number of
      mines, placed in the first cells and shuffled over the whole board. */
  method NewGame(rows: int, cols: int, percentBomb: int, draw: (int, int) -> (int, int))
    returns (r: Result<Field, GenError>)
    requires forall i, j :: 0 <= i < rows && 0 <= j < cols ==>
      TruncatedDraw(draw(i, j).0, rows - i) && TruncatedDraw(draw(i, j).1, cols - j)
    ensures var d := DifficultyModel.MakeDifficulty(rows, cols, percentBomb);
      && (d.Failure? <==> r.Failure?)
      && (d.Failure? ==> r == Failure(Config(d.error)))
    ensures r.Success? ==> && Consistent(r.value) && r.value.rows == rows && r.value.cols == cols
                           && r.value.firstMove && r.value.result == InProgress
                           && (forall p :: p in r.value.grid ==> r.value.grid[p].state == Hidden)
                           && r.value.bombCount == BombsToPlace(rows, cols, percentBomb)
  {
    var d := DifficultyModel.MakeDifficulty(rows, cols, percentBomb);
    if d.Failure? {
      return Failure(Config(d.error));
    }
    var n := BombsToPlace(rows, cols, percentBomb);
    var markers := PlaceMarkers(rows, cols, n);
    markers := Shuffle(markers, rows, cols, draw);
    var f := FillFromMarkers(rows, cols, markers);
    return Success(f);
  }
}

=== FILE: grid.dfy ===
/**
 * The state of a `Minefield`: a rows x cols grid of cells (a display state and
 * a mine flag) and the parallel count matrix `bombValues`, which holds -1 for a
 * mine and otherwise the number of mined 8-neighbours.  Both matrices are
 * modelled as maps from positions; a position is in them exactly when
 * `validCell` accepts it.
 */
module Grid {

  datatype Pos = Pos(row: int, col: int)

  /** The cell states the minefield uses (the revision of `Cell` it is written against). */
  datatype CellState = Hidden | Revealed | Flagged | FlaggedQuestion | Exploded

  datatype Cell = Cell(state: CellState, bomb: bool)

  datatype GameResult = InProgress | GameLost

  /** The value `bombValues` holds for a mined cell. */
  const BombCell: int := -1

  datatype Field = Field(
    rows: int,
    cols: int,
    grid: map<Pos, Cell>,
    values: map<Pos, int>,
    bombCount: int,
    firstMove: bool,
    result: GameResult)

  predicate InRange(rows: int, cols: int, p: Pos) {
    0 <= p.row < rows && 0 <= p.col < cols
  }

  function AllPositions(rows: int, cols: int): (s: set<Pos>)
    ensures forall p :: p in s <==> InRange(rows, cols, p)
  {
    set i, j | 0 <= i < rows && 0 <= j < cols :: Pos(i, j)
  }

  /** `validCell`. */
  predicate ValidCell(f: Field, p: Pos) {
    InRange(f.rows, f.cols, p)
  }

  /** Both matrices cover exactly the rectangle; there is at least one row,
      since `colCount` reads the length of row 0. */
  predicate Shaped(f: Field) {
    && 1 <= f.rows
    && 0 <= f.cols
    && f.grid.Keys == AllPositions(f.rows, f.cols)
    && f.values.Keys == f.grid.Keys
  }

  /** `q` lies in the 3x3 block centred on `p` (the block the double
      loops of `Minefield.java` `row - 1 .. row + 1`, `col - 1 .. col + 1` visit). */
  predicate Near(p: Pos, q: Pos) {
    -1 <= q.row - p.row <= 1 && -1 <= q.col - p.col <= 1
  }

  /** `q` is one of the up-to-8 neighbours of `p`. */
  predicate Adjacent(p: Pos, q: Pos) {
    Near(p, q) && p != q
  }

  /** All mined positions. */
  function Mines(grid: map<Pos, Cell>): set<Pos> {
    set q | q in grid && grid[q].bomb
  }

  /** The mined neighbours of `p`. */
  function MinesAround(grid: map<Pos, Cell>, p: Pos): set<Pos> {
    set q | q in grid && Adjacent(p, q) && grid[q].bomb
  }

  function NeighbourMines(grid: map<Pos, Cell>, p: Pos): nat {
    |MinesAround(grid, p)|
  }

  /** The count matrix is right wherever it does not say "mine", and says
      "mine" on every mined cell.  This is the part of the invariant that
      holds while a field is still being filled. */
  ghost predicate CountsAgree(grid: map<Pos, Cell>, values: map<Pos, int>) {
    forall p :: p in grid ==>
      && p in values
      && (grid[p].bomb ==> values[p] == BombCell)
      && (values[p] != BombCell ==> values[p] == NeighbourMines(grid, p))
  }

  /** The minefield invariant: -1 exactly on the mines, the number of mined
      neighbours everywhere else, and `bombCount` is the number of mines. */
  ghost predicate Consistent(f: Field) {
    && Shaped(f)
    && CountsAgree(f.grid, f.values)
    && (forall p :: p in f.values && f.values[p] == BombCell ==> f.grid[p].bomb)
    && f.bombCount == |Mines(f.grid)|
  }

  /** The invariant at one cell: -1 exactly on a mine, the mined-neighbour
      count on a safe cell. */
  ghost predicate CellAgrees(f: Field, p: Pos)
    requires p in f.grid && p in f.values
  {
    && (f.grid[p].bomb <==> f.values[p] == BombCell)
    && (!f.grid[p].bomb ==> f.values[p] == NeighbourMines(f.grid, p))
  }

  /** The minefield invariant, assembled cell by cell. */
  lemma ConsistentByCells(f: Field)
    requires Shaped(f) && f.bombCount == |Mines(f.grid)|
    requires forall p :: p in f.grid ==> CellAgrees(f, p)
    ensures Consistent(f)
  {
  }

  /** Setting one mine adds exactly that position to the mine set. */
  lemma MinesWith(grid: map<Pos, Cell>, t: Pos)
    requires t in grid && !grid[t].bomb
    ensures Mines(grid[t := grid[t].(bomb := true)]) == Mines(grid) + {t}
    ensures |Mines(grid[t := grid[t].(bomb := true)])| == |Mines(grid)| + 1
  {
    assert Mines(grid[t := grid[t].(bomb := true)]) == Mines(grid) + {t};
  }

  /** Clearing one mine removes exactly that position from the mine set. */
  lemma MinesWithout(grid: map<Pos, Cell>, t: Pos)
    requires t in grid && grid[t].bomb
    ensures Mines(grid[t := grid[t].(bomb := false)]) == Mines(grid) - {t}
    ensures |Mines(grid[t := grid[t].(bomb := false)])| == |Mines(grid)| - 1
  {
    assert Mines(grid[t := grid[t].(bomb := false)]) == Mines(grid) - {t};
  }

  /** The eight positions around `p`. */
  function Ring(p: Pos): set<Pos> {
    {Pos(p.row - 1, p.col - 1), Pos(p.row - 1, p.col), Pos(p.row - 1, p.col + 1),
     Pos(p.row, p.col - 1), Pos(p.row, p.col + 1),
     Pos(p.row + 1, p.col - 1), Pos(p.row + 1, p.col), Pos(p.row + 1, p.col + 1)}
  }

  /** A cell has at most eight mined neighbours, so a count is a single digit. */
  lemma NeighbourMinesAtMostEight(grid: map<Pos, Cell>, p: Pos)
    ensures NeighbourMines(grid, p) <= 8
  {
    var r := Ring(p);
    assert |r| == 8;
    assert MinesAround(grid, p) <= r by {
      forall q | q in MinesAround(grid, p) ensures q in r {
        assert q.row - p.row in {-1, 0, 1} && q.col - p.col in {-1, 0, 1};
      }
    }
    SubsetCard(MinesAround(grid, p), r);
  }

  lemma SubsetCard<T>(a: set<T>, b: set<T>)
    requires a <= b
    ensures |a| <= |b|
  {
    assert b == a + (b - a);
  }

  /** In a consistent field every count is -1 or a digit 0..8. */
  lemma ConsistentValueRange(f: Field, p: Pos)
    requires Consistent(f) && p in f.grid
    ensures -1 <= f.values[p] <= 8
    ensures f.values[p] == BombCell <==> f.grid[p].bomb
  {
    if f.values[p] != BombCell {
      NeighbourMinesAtMostEight(f.grid, p);
    }
  }

  /** Row-major order, the order of the `i`/`j` double loops of `Minefield.java`. */
  predicate RowMajorBefore(q: Pos, e: Pos) {
    q.row < e.row || (q.row == e.row && q.col < e.col)
  }

  /** Display states do not enter the minefield invariant: changing only
      states keeps a consistent field consistent. */
  lemma StatesDoNotMatter(f: Field, g: Field)
    requires Consistent(f)
    requires g == f.(grid := g.grid) && g.grid.Keys == f.grid.Keys
    requires forall q :: q in f.grid ==> g.grid[q].bomb == f.grid[q].bomb
    ensures Consistent(g)
  {
    assert Mines(g.grid) == Mines(f.grid);
    forall p | p in g.grid
      ensures MinesAround(g.grid, p) == MinesAround(f.grid, p)
    {
      assert MinesAround(g.grid, p) == MinesAround(f.grid, p);
    }
  }

  /** A product with a positive factor is at least the other factor. */
  lemma {:induction false} MulAtLeast(d: int, c: int)
    requires 1 <= d && 0 <= c
    ensures d * c >= c
  {
    if d > 1 {
      MulAtLeast(d - 1, c);
      assert d * c == (d - 1) * c + c;
    }
  }

  /** A cell of an earlier row of width w comes before row m starts. */
  lemma RowBeforeFits(i: int, m: int, w: int, j: int)
    requires 0 <= i < m && 0 <= j < w
    ensures i * w + j < m * w
  {
    MulAtLeast(m - i, w);
    assert (m - i) * w == m * w - i * w;
  }
}

=== FILE: results.dfy ===
/** The outcome of an operation that the Java code can abort with an exception. */
module Results {

  /** Either the value an operation computed, or the reason it was aborted. */
  datatype Result<+T, +E> = Success(value: T) | Failure(error: E)
}

=== FILE: reveal.dfy ===
/**
 * Revealing cells: `revealCell`, the breadth-first `revealArea`, `revealAll`
 * and the player's move `chooseCell`.
 */
module Reveal {
  import opened Results
  import opened Grid
  import Bombs

  /** The positions not yet Revealed; the flood fill's termination measure. */
  function Unrevealed(grid: map<Pos, Cell>): set<Pos> {
    set q | q in grid && grid[q].state != Revealed
  }

  /** `g` differs from `f` only in that some safe cells that were not yet
      Revealed now are: no mine is revealed, no Revealed cell is touched, and
      the counts, the mines and the game flags are unchanged. */
  ghost predicate OnlyReveals(f: Field, g: Field) {
    && g == f.(grid := g.grid)
    && g.grid.Keys == f.grid.Keys
    && forall q :: q in f.grid ==>
         || g.grid[q] == f.grid[q]
         || (f.grid[q].state != Revealed && !f.grid[q].bomb && g.grid[q] == f.grid[q].(state := Revealed))
  }

  /** `q` was revealed on the way from `f` to `g`. */
  ghost predicate Newly(f: Field, g: Field, q: Pos) {
    q in f.grid && q in g.grid && g.grid[q] != f.grid[q]
  }

  lemma OnlyRevealsTransitive(f: Field, g: Field, h: Field)
    requires OnlyReveals(f, g) && OnlyReveals(g, h)
    ensures OnlyReveals(f, h)
  {
  }

  /** Revealing safe cells keeps every count right. */
  lemma OnlyRevealsKeepsConsistency(f: Field, g: Field)
    requires Consistent(f) && OnlyReveals(f, g)
    ensures Consistent(g)
  {
    StatesDoNotMatter(f, g);
  }

  /** `revealCell`: a safe cell that is not yet Revealed becomes Revealed
      (`revealCell` asserts both conditions). */
  function RevealCell(f: Field, p: Pos): (g: Field)
    requires Shaped(f) && p in f.grid && f.grid[p].state != Revealed && !f.grid[p].bomb
    ensures OnlyReveals(f, g) && Shaped(g)
    ensures g.grid[p].state == Revealed
    ensures forall q :: q in f.grid && q != p ==> g.grid[q] == f.grid[q]
    ensures Unrevealed(g.grid) == Unrevealed(f.grid) - {p}
    ensures |Unrevealed(g.grid)| == |Unrevealed(f.grid)| - 1
  {
    var g := f.(grid := f.grid[p := f.grid[p].(state := Revealed)]);
    assert Unrevealed(g.grid) == Unrevealed(f.grid) - {p};
    g
  }

  /** Every safe cell of the 3x3 block around `x` is Revealed in `g`. */
  ghost predicate Expanded(g: Field, x: Pos) {
    forall q :: q in g.grid && Near(x, q) && !g.grid[q].bomb ==> g.grid[q].state == Revealed
  }

  /** Each newly revealed cell is recorded with the dequeued cell whose block it lies in. */
  ghost predicate ParentsOk(f: Field, g: Field, order: seq<Pos>, parent: map<Pos, nat>) {
    && (forall q :: q in parent <==> Newly(f, g, q))
    && (forall q :: q in parent ==> parent[q] < |order| && Near(order[parent[q]], q))
  }

  /** The queue holds zero-count cells: the seed at the start, newly revealed cells afterwards. */
  ghost predicate QueueOk(f: Field, p: Pos, queue: seq<Pos>, order: seq<Pos>, parent: map<Pos, nat>) {
    && (forall k :: 0 <= k < |queue| ==> queue[k] in f.grid && queue[k] in f.values && f.values[queue[k]] == 0)
    && (|order| == 0 ==> queue == [p])
    && (|order| > 0 ==> forall k :: 0 <= k < |queue| ==> queue[k] in parent)
  }

  /** The dequeued cells have count zero, start with the seed, and each later
      one was revealed from the block of an earlier one. */
  ghost predicate OrderOk(f: Field, p: Pos, order: seq<Pos>, parent: map<Pos, nat>) {
    && (forall k :: 0 <= k < |order| ==> order[k] in f.grid && order[k] in f.values && f.values[order[k]] == 0)
    && (|order| > 0 ==> order[0] == p)
    && (forall k :: 0 < k < |order| ==> order[k] in parent && parent[order[k]] < k)
  }

  /** No newly revealed zero-count cell is forgotten. */
  ghost predicate NoZeroLost(f: Field, queue: seq<Pos>, order: seq<Pos>, parent: map<Pos, nat>) {
    forall q :: q in parent && q in f.values && f.values[q] == 0 ==> q in queue || q in order
  }

  ghost predicate ExpandedUpTo(g: Field, order: seq<Pos>, done: int) {
    0 <= done <= |order| && forall k :: 0 <= k < done ==> Expanded(g, order[k])
  }

  /**
   * The state of the flood fill from the zero-count seed `p`: `g` is `f` with
   * some safe cells revealed; `order` lists the dequeued cells; `parent` maps
   * each newly revealed cell to the position in `order` of the cell whose
   * block it lies in; the first `done` dequeued cells have their whole block
   * revealed.
   */
  ghost predicate FillState(f: Field, p: Pos, g: Field, queue: seq<Pos>, order: seq<Pos>, parent: map<Pos, nat>, done: int) {
    && Shaped(f) && p in f.grid && f.values[p] == 0
    && OnlyReveals(f, g)
    && ParentsOk(f, g, order, parent)
    && QueueOk(f, p, queue, order, parent)
    && OrderOk(f, p, order, parent)
    && NoZeroLost(f, queue, order, parent)
    && ExpandedUpTo(g, order, done)
  }

  lemma RevealKeepsParents(f: Field, g0: Field, g: Field, order: seq<Pos>, parent0: map<Pos, nat>, q: Pos)
    requires OnlyReveals(f, g0) && ParentsOk(f, g0, order, parent0)
    requires |order| > 0 && Near(order[|order| - 1], q)
    requires Shaped(g0) && q in g0.grid && g0.grid[q].state != Revealed && !g0.grid[q].bomb
    requires g == RevealCell(g0, q)
    ensures ParentsOk(f, g, order, parent0[q := |order| - 1])
  {
  }

  lemma RevealKeepsQueue(f: Field, p: Pos, queue0: seq<Pos>, queue: seq<Pos>, order: seq<Pos>, parent0: map<Pos, nat>, q: Pos)
    requires QueueOk(f, p, queue0, order, parent0) && |order| > 0
    requires q in f.grid && q in f.values
    requires queue == (if f.values[q] == 0 then queue0 + [q] else queue0)
    ensures QueueOk(f, p, queue, order, parent0[q := |order| - 1])
  {
  }

  lemma RevealKeepsOrder(f: Field, p: Pos, order: seq<Pos>, parent0: map<Pos, nat>, q: Pos)
    requires OrderOk(f, p, order, parent0) && q !in parent0 && |order| > 0
    ensures OrderOk(f, p, order, parent0[q := |order| - 1])
  {
  }

  lemma RevealKeepsExpanded(g0: Field, g: Field, order: seq<Pos>, done: int)
    requires ExpandedUpTo(g0, order, done) && OnlyReveals(g0, g)
    ensures ExpandedUpTo(g, order, done)
  {
    forall k | 0 <= k < done
      ensures Expanded(g, order[k])
    {
      assert Expanded(g0, order[k]);
    }
  }

  /** Every safe cell of the block around `x` that a row-major walk has
      passed before (i, j) is Revealed. */
  ghost predicate BlockRevealed(g: Field, x: Pos, i: int, j: int) {
    forall q :: q in g.grid && Bombs.BlockVisited(x, i, j, q) && !g.grid[q].bomb ==> g.grid[q].state == Revealed
  }

  lemma BlockRevealedStep(f: Field, g0: Field, g: Field, x: Pos, i: int, j: int)
    requires BlockRevealed(g0, x, i, j) && OnlyReveals(g0, g) && OnlyReveals(f, g0)
    requires Pos(i, j) in f.grid && !f.grid[Pos(i, j)].bomb ==> g.grid[Pos(i, j)].state == Revealed
    ensures BlockRevealed(g, x, i, j + 1)
  {
    forall q | q in g.grid && Bombs.BlockVisited(x, i, j + 1, q) && !g.grid[q].bomb
      ensures g.grid[q].state == Revealed
    {
      if q.row == i && q.col == j {
        assert q == Pos(i, j);
      } else {
        assert g0.grid[q].state == Revealed;
      }
    }
  }

  lemma BlockRevealedNextRow(g: Field, x: Pos, i: int)
    requires BlockRevealed(g, x, i, x.col + 2)
    ensures BlockRevealed(g, x, i + 1, x.col - 1)
  {
    assert forall q :: Near(x, q) ==> (Bombs.BlockVisited(x, i + 1, x.col - 1, q) <==> Bombs.BlockVisited(x, i, x.col + 2, q));
  }

  /** The body of the flood fill's inner loop for one position `q` of the
      block around the dequeued cell `x`: a safe in-bounds cell that is not
      Revealed is revealed, and queued when its count is zero. */
  method VisitNeighbour(f: Field, p: Pos, x: Pos, q: Pos, g0: Field, queue0: seq<Pos>, ghost order: seq<Pos>, ghost parent0: map<Pos, nat>)
    returns (g: Field, queue: seq<Pos>, ghost parent: map<Pos, nat>)
    requires |order| > 0 && x == order[|order| - 1] && Near(x, q)
    requires FillState(f, p, g0, queue0, order, parent0, |order| - 1)
    ensures FillState(f, p, g, queue, order, parent, |order| - 1)
    ensures OnlyReveals(g0, g)
    ensures q in f.grid && !f.grid[q].bomb ==> g.grid[q].state == Revealed
    ensures |Unrevealed(g.grid)| <= |Unrevealed(g0.grid)|
    ensures |queue| <= |queue0| + |Unrevealed(g0.grid)| - |Unrevealed(g.grid)|
  {
    g, queue, parent := g0, queue0, parent0;
    if ValidCell(g, q) && g.grid[q].state != Revealed && !g.grid[q].bomb {
      assert !Newly(f, g0, q);
      g := RevealCell(g, q);
      OnlyRevealsTransitive(f, g0, g);
      RevealKeepsParents(f, g0, g, order, parent0, q);
      parent := parent[q := |order| - 1];
      if g.values[q] == 0 {
        queue := queue + [q];
      }
      RevealKeepsQueue(f, p, queue0, queue, order, parent0, q);
      RevealKeepsOrder(f, p, order, parent0, q);
      RevealKeepsExpanded(g0, g, order, |order| - 1);
    }
  }

  /** One row of the block around the dequeued cell `x`, visited left to right. */
  method ExpandRow(f: Field, p: Pos, x: Pos, i: int, g0: Field, queue0: seq<Pos>, ghost order: seq<Pos>, ghost parent0: map<Pos, nat>)
    returns (g: Field, queue: seq<Pos>, ghost parent: map<Pos, nat>)
    requires |order| > 0 && x == order[|order| - 1] && x.row - 1 <= i <= x.row + 1
    requires FillState(f, p, g0, queue0, order, parent0, |order| - 1)
    requires BlockRevealed(g0, x, i, x.col - 1)
    ensures FillState(f, p, g, queue, order, parent, |order| - 1)
    ensures BlockRevealed(g, x, i + 1, x.col - 1)
    ensures |Unrevealed(g.grid)| <= |Unrevealed(g0.grid)|
    ensures |queue| <= |queue0| + |Unrevealed(g0.grid)| - |Unrevealed(g.grid)|
  {
    g, queue, parent := g0, queue0, parent0;
    var j := x.col - 1;
    while j <= x.col + 1
      invariant x.col - 1 <= j <= x.col + 2
      invariant FillState(f, p, g, queue, order, parent, |order| - 1)
      invariant BlockRevealed(g, x, i, j)
      invariant |Unrevealed(g.grid)| <= |Unrevealed(g0.grid)|
      invariant |queue| <= |queue0| + |Unrevealed(g0.grid)| - |Unrevealed(g.grid)|
    {
      ghost var before := g;
      g, queue, parent := VisitNeighbour(f, p, x, Pos(i, j), g, queue, order, parent);
      BlockRevealedStep(f, before, g, x, i, j);
      j := j + 1;
    }
    BlockRevealedNextRow(g, x, i);
  }

  /** The dequeued cell `x` is expanded: the three rows of its 3x3 block are
      visited top to bottom. */
  method ExpandCell(f: Field, p: Pos, x: Pos, g0: Field, queue0: seq<Pos>, ghost order: seq<Pos>, ghost parent0: map<Pos, nat>)
    returns (g: Field, queue: seq<Pos>, ghost parent: map<Pos, nat>)
    requires |order| > 0 && x == order[|order| - 1]
    requires FillState(f, p, g0, queue0, order, parent0, |order| - 1)
    ensures FillState(f, p, g, queue, order, parent, |order|)
    ensures |Unrevealed(g.grid)| <= |Unrevealed(g0.grid)|
    ensures |queue| <= |queue0| + |Unrevealed(g0.grid)| - |Unrevealed(g.grid)|
  {
    g, queue, parent := ExpandRow(f, p, x, x.row - 1, g0, queue0, order, parent0);
    g, queue, parent := ExpandRow(f, p, x, x.row, g, queue, order, parent);
    g, queue, parent := ExpandRow(f, p, x, x.row + 1, g, queue, order, parent);
    assert Expanded(g, x) by {
      assert forall q :: Near(x, q) ==> Bombs.BlockVisited(x, x.row + 2, x.col - 1, q);
    }
  }

  /** Taking the head of the queue and appending it to `order` keeps the fill state. */
  lemma DequeueKeepsFillState(f: Field, p: Pos, g: Field, queue: seq<Pos>, order: seq<Pos>, parent: map<Pos, nat>)
    requires FillState(f, p, g, queue, order, parent, |order|) && |queue| > 0
    ensures FillState(f, p, g, queue[1..], order + [queue[0]], parent, |order|)
  {
    var order' := order + [queue[0]];
    assert forall k :: 0 <= k < |order| ==> order'[k] == order[k];
    DequeueKeepsParents(f, g, queue[0], order, parent);
    DequeueKeepsQueue(f, p, queue, order, parent);
    DequeueKeepsOrder(f, p, queue, order, parent);
    DequeueKeepsZeros(f, queue, order, parent);
    DequeueKeepsExpanded(g, queue[0], order);
  }

  lemma DequeueKeepsParents(f: Field, g: Field, x: Pos, order: seq<Pos>, parent: map<Pos, nat>)
    requires ParentsOk(f, g, order, parent)
    ensures ParentsOk(f, g, order + [x], parent)
  {
    forall q | q in parent
      ensures parent[q] < |order + [x]| && Near((order + [x])[parent[q]], q)
    {
      assert (order + [x])[parent[q]] == order[parent[q]];
    }
  }

  lemma DequeueKeepsQueue(f: Field, p: Pos, queue: seq<Pos>, order: seq<Pos>, parent: map<Pos, nat>)
    requires QueueOk(f, p, queue, order, parent) && |queue| > 0
    ensures QueueOk(f, p, queue[1..], order + [queue[0]], parent)
  {
    assert forall k :: 0 <= k < |queue| - 1 ==> queue[1..][k] == queue[k + 1];
  }

  lemma DequeueKeepsOrder(f: Field, p: Pos, queue: seq<Pos>, order: seq<Pos>, parent: map<Pos, nat>)
    requires QueueOk(f, p, queue, order, parent) && OrderOk(f, p, order, parent) && |queue| > 0
    requires forall q :: q in parent ==> parent[q] < |order|
    ensures OrderOk(f, p, order + [queue[0]], parent)
  {
    var order' := order + [queue[0]];
    assert forall k :: 0 <= k < |order| ==> order'[k] == order[k];
    assert order'[|order|] == queue[0];
  }

  lemma DequeueKeepsZeros(f: Field, queue: seq<Pos>, order: seq<Pos>, parent: map<Pos, nat>)
    requires NoZeroLost(f, queue, order, parent) && |queue| > 0
    ensures NoZeroLost(f, queue[1..], order + [queue[0]], parent)
  {
    var order' := order + [queue[0]];
    forall q | q in parent && q in f.values && f.values[q] == 0
      ensures q in queue[1..] || q in order'
    {
      if q in order {
        var k :| 0 <= k < |order| && order[k] == q;
        assert order'[k] == q;
      } else if q == queue[0] {
        assert order'[|order|] == q;
      } else {
        var k :| 0 <= k < |queue| && queue[k] == q;
        assert queue[1..][k - 1] == q;
      }
    }
  }

  lemma DequeueKeepsExpanded(g: Field, x: Pos, order: seq<Pos>)
    requires ExpandedUpTo(g, order, |order|)
    ensures ExpandedUpTo(g, order + [x], |order|)
  {
    assert forall k :: 0 <= k < |order| ==> (order + [x])[k] == order[k];
  }

  /**
   * `revealArea`: a cell with a non-zero count is revealed alone; from a
   * zero-count cell a breadth-first fill reveals every safe cell in the block
   * of each dequeued cell and queues the newly revealed zero-count ones.
   * `order` is the sequence of dequeued cells.  The target must not be a
   * mine, and a non-zero target must not be Revealed yet (`revealArea` and
   * `revealCell` assert these).
   */
  method RevealArea(f: Field, p: Pos) returns (g: Field, ghost order: seq<Pos>)
    requires Consistent(f) && p in f.grid
    requires f.values[p] != BombCell
    requires f.values[p] != 0 ==> f.grid[p].state != Revealed
    ensures OnlyReveals(f, g) && Consistent(g)
    ensures g.grid[p].state == Revealed
    ensures f.values[p] != 0 ==> forall q :: q in f.grid && q != p ==> g.grid[q] == f.grid[q]
    ensures f.values[p] == 0 ==> |order| > 0 && order[0] == p
    ensures forall k :: 0 <= k < |order| ==> order[k] in f.grid && f.values[order[k]] == 0 && Expanded(g, order[k])
    ensures forall k :: 0 < k < |order| ==> exists m :: 0 <= m < k && Near(order[m], order[k])
    ensures forall k :: 0 < k < |order| ==> Newly(f, g, order[k])
    ensures forall q :: Newly(f, g, q) ==> q == p || exists m :: 0 <= m < |order| && Near(order[m], q)
    ensures forall q :: Newly(f, g, q) && f.values[q] == 0 ==> q in order
  {
    if f.values[p] != 0 {
      g := RevealCell(f, p);
      order := [];
      OnlyRevealsKeepsConsistency(f, g);
      return;
    }
    var queue := [p];
    g, order := f, [];
    ghost var parent: map<Pos, nat> := map[];
    while |queue| > 0
      invariant FillState(f, p, g, queue, order, parent, |order|)
      decreases |Unrevealed(g.grid)|, |queue|
    {
      DequeueKeepsFillState(f, p, g, queue, order, parent);
      var x := queue[0];
      queue := queue[1..];
      order := order + [x];
      g, queue, parent := ExpandCell(f, p, x, g, queue, order, parent);
    }
    OnlyRevealsKeepsConsistency(f, g);
    assert Expanded(g, order[0]);
    forall k | 0 < k < |order|
      ensures exists m :: 0 <= m < k && Near(order[m], order[k])
      ensures Newly(f, g, order[k])
    {
      var m := parent[order[k]];
      assert Near(order[m], order[k]);
    }
    forall q | Newly(f, g, q)
      ensures exists m :: 0 <= m < |order| && Near(order[m], q)
    {
      var m := parent[q];
      assert Near(order[m], q);
    }
  }

  /** The grid with every cell before `e` in row-major order Revealed. */
  function RevealedBefore(grid: map<Pos, Cell>, e: Pos): (r: map<Pos, Cell>)
    ensures r.Keys == grid.Keys
  {
    map q | q in grid :: if RowMajorBefore(q, e) then grid[q].(state := Revealed) else grid[q]
  }

  lemma RevealNextCell(orig: map<Pos, Cell>, grid: map<Pos, Cell>, i: int, j: int)
    requires Pos(i, j) in orig && grid == RevealedBefore(orig, Pos(i, j))
    ensures grid[Pos(i, j) := grid[Pos(i, j)].(state := Revealed)] == RevealedBefore(orig, Pos(i, j + 1))
  {
    var l := grid[Pos(i, j) := grid[Pos(i, j)].(state := Revealed)];
    var r := RevealedBefore(orig, Pos(i, j + 1));
    forall q | q in orig
      ensures l[q] == r[q]
    {
      if q.row == i && q.col == j {
        assert q == Pos(i, j);
      }
    }
  }

  lemma RevealedNothing(grid: map<Pos, Cell>, rows: int, cols: int)
    requires grid.Keys == AllPositions(rows, cols)
    ensures RevealedBefore(grid, Pos(0, 0)) == grid
  {
  }

  lemma RevealNextRow(grid: map<Pos, Cell>, rows: int, cols: int, i: int)
    requires grid.Keys == AllPositions(rows, cols)
    ensures RevealedBefore(grid, Pos(i, cols)) == RevealedBefore(grid, Pos(i + 1, 0))
  {
    forall q | q in grid
      ensures RowMajorBefore(q, Pos(i, cols)) == RowMajorBefore(q, Pos(i + 1, 0))
    {
    }
  }

  /** Past the last row every cell is Revealed and nothing else has changed. */
  lemma RevealedAllRows(f: Field, g: Field)
    requires Shaped(f) && g == f.(grid := RevealedBefore(f.grid, Pos(f.rows, 0)))
    ensures g == f.(grid := g.grid) && g.grid.Keys == f.grid.Keys
    ensures forall q :: q in f.grid ==> g.grid[q].state == Revealed && g.grid[q].bomb == f.grid[q].bomb
    ensures Consistent(f) ==> Consistent(g)
  {
    assert forall q :: q in f.grid ==> RowMajorBefore(q, Pos(f.rows, 0));
    if Consistent(f) {
      StatesDoNotMatter(f, g);
    }
  }

  /** The inner loop of `revealAll`: row i, left to right. */
  method RevealRow(orig: map<Pos, Cell>, grid0: map<Pos, Cell>, rows: int, cols: int, i: int) returns (grid: map<Pos, Cell>)
    requires orig.Keys == AllPositions(rows, cols) && 0 <= i < rows && 0 <= cols
    requires grid0 == RevealedBefore(orig, Pos(i, 0))
    ensures grid == RevealedBefore(orig, Pos(i, cols))
  {
    grid := grid0;
    var j := 0;
    while j < cols
      invariant 0 <= j <= cols
      invariant grid == RevealedBefore(orig, Pos(i, j))
    {
      RevealNextCell(orig, grid, i, j);
      grid := grid[Pos(i, j) := grid[Pos(i, j)].(state := Revealed)];
      j := j + 1;
    }
  }

  /** `revealAll`: every cell, mines and flags included, becomes Revealed. */
  method RevealAll(f: Field) returns (g: Field)
    requires Shaped(f)
    ensures g == f.(grid := g.grid) && g.grid.Keys == f.grid.Keys
    ensures forall q :: q in f.grid ==> g.grid[q].state == Revealed && g.grid[q].bomb == f.grid[q].bomb
    ensures Consistent(f) ==> Consistent(g)
  {
    var grid := f.grid;
    RevealedNothing(f.grid, f.rows, f.cols);
    var i := 0;
    while i < f.rows
      invariant 0 <= i <= f.rows
      invariant grid == RevealedBefore(f.grid, Pos(i, 0))
    {
      grid := RevealRow(f.grid, grid, f.rows, f.cols, i);
      RevealNextRow(f.grid, f.rows, f.cols, i);
      i := i + 1;
    }
    g := f.(grid := grid);
    RevealedAllRows(f, g);
  }

  /** Why `chooseCell` throws: coordinates `validCell` rejects, or (on the
      first move) one of the assertions of `revealArea`/`revealCell`. */
  datatype MoveError = InvalidCell | AssertionFailed

  /**
   * A first move that keeps every display state and then only reveals: any
   * cell whose state changed is now a Revealed safe cell, and the reveal
   * leaves the mines where the move put them.
   */
  lemma RevealAfterMove(f: Field, f1: Field, g: Field)
    requires f1.grid.Keys == f.grid.Keys
    requires forall q :: q in f1.grid ==> f1.grid[q].state == f.grid[q].state
    requires OnlyReveals(f1, g)
    ensures forall q :: q in f.grid && g.grid[q].state != f.grid[q].state ==>
              g.grid[q].state == Revealed && !g.grid[q].bomb
    ensures Mines(g.grid) == Mines(f1.grid)
  {
    forall q | q in f.grid && g.grid[q].state != f.grid[q].state
      ensures g.grid[q].state == Revealed && !g.grid[q].bomb
    {
      assert g.grid[q] != f1.grid[q];
    }
  }

  /** `q` changed display state on the way from `f` to `g`. */
  ghost predicate Opened(f: Field, g: Field, q: Pos) {
    q in f.grid && q in g.grid && g.grid[q].state != f.grid[q].state
  }

  /**
   * What the flood fill from `p` leaves, seen from the field `f` before the
   * move: a zero-count seed has its whole safe block revealed, a non-zero
   * seed is the only cell opened, every opened zero-count cell has its whole
   * safe block revealed, and every opened cell is the seed, lies next to it,
   * or lies next to an opened zero-count cell.
   */
  ghost predicate FloodFilled(f: Field, g: Field, p: Pos) {
    && (p in g.values && g.values[p] == 0 ==> Expanded(g, p))
    && (p in g.values && g.values[p] != 0 ==> forall q :: Opened(f, g, q) ==> q == p)
    && (forall q :: Opened(f, g, q) && q in g.values && g.values[q] == 0 ==> Expanded(g, q))
    && (forall q :: Opened(f, g, q) ==>
          || q == p || Near(p, q)
          || exists x :: Opened(f, g, x) && x in g.values && g.values[x] == 0 && Near(x, q))
  }

  /** The flood fill of `revealArea` on the moved field `f1`, restated from `f`. */
  lemma FirstMoveFill(f: Field, f1: Field, g: Field, h: Field, p: Pos, order: seq<Pos>)
    requires Consistent(f1) && f1.grid.Keys == f.grid.Keys && p in f1.grid
    requires forall q :: q in f1.grid ==> f1.grid[q].state == f.grid[q].state
    requires OnlyReveals(f1, g) && h == g.(firstMove := false)
    requires f1.values[p] != 0 ==> forall q :: q in f1.grid && q != p ==> g.grid[q] == f1.grid[q]
    requires f1.values[p] == 0 ==> |order| > 0 && order[0] == p
    requires forall k :: 0 <= k < |order| ==> order[k] in f1.grid && f1.values[order[k]] == 0 && Expanded(g, order[k])
    requires forall k :: 0 < k < |order| ==> Newly(f1, g, order[k])
    requires forall q :: Newly(f1, g, q) ==> q == p || exists m :: 0 <= m < |order| && Near(order[m], q)
    requires forall q :: Newly(f1, g, q) && f1.values[q] == 0 ==> q in order
    ensures FloodFilled(f, h, p)
  {
    forall q | Opened(f, h, q) && q in h.values && h.values[q] == 0
      ensures Expanded(h, q)
    {
      assert Newly(f1, g, q);
      var k :| 0 <= k < |order| && order[k] == q;
    }
    forall q | Opened(f, h, q)
      ensures || q == p || Near(p, q)
              || exists x :: Opened(f, h, x) && x in h.values && h.values[x] == 0 && Near(x, q)
    {
      assert Newly(f1, g, q);
      if q != p {
        var m :| 0 <= m < |order| && Near(order[m], q);
        if m > 0 {
          assert Newly(f1, g, order[m]);
          assert Opened(f, h, order[m]);
        }
      }
    }
  }

  /**
   * The assertions of `revealArea` hold on the first move from `p`: after the
   * mine (if any) has moved to the first safe cell, the chosen cell is safe,
   * and it has a zero count or is not yet Revealed.
   */
  ghost predicate FirstMoveAllowed(f: Field, p: Pos)
    requires Shaped(f) && p in f.grid
  {
    if !f.grid[p].bomb then f.values[p] == 0 || f.grid[p].state != Revealed
    else exists e :: Bombs.FirstSafe(f.grid, e) &&
           (f.grid[p].state != Revealed || NeighbourMines(Bombs.MovedMine(f.grid, p, e), p) == 0)
  }

  /** `FirstMoveAllowed` is exactly the condition `FirstMove` tests on the moved field. */
  lemma FirstMoveAllowedAfterMove(f: Field, p: Pos, f1: Field)
    requires Consistent(f) && p in f.grid && Consistent(f1) && p in f1.grid
    requires !f.grid[p].bomb ==> f1 == f
    requires f.grid[p].bomb && (forall q :: q in f.grid ==> f.grid[q].bomb) ==> f1 == f
    requires f.grid[p].bomb && (exists q :: q in f.grid && !f.grid[q].bomb) ==>
               exists e :: Bombs.FirstSafe(f.grid, e) && f1.grid == Bombs.MovedMine(f.grid, p, e)
    ensures FirstMoveAllowed(f, p) <==>
              f1.values[p] != BombCell && (f1.values[p] == 0 || f1.grid[p].state != Revealed)
  {
    if f.grid[p].bomb {
      if e0 :| Bombs.FirstSafe(f.grid, e0) && f1.grid == Bombs.MovedMine(f.grid, p, e0) {
        assert CellAgrees(f1, p);
        forall e | Bombs.FirstSafe(f.grid, e)
          ensures e == e0
        {
          Bombs.FirstSafeUnique(f.grid, e, e0);
        }
      } else {
        assert f1 == f;
      }
    }
  }

  /**
   * The first-move branch of `chooseCell`: a mine on the chosen cell moves
   * to the first safe cell (counts kept), then the flood fill runs from the
   * chosen cell.  It fails exactly where an assertion of `revealArea` would.
   */
  method FirstMove(f: Field, p: Pos) returns (r: Result<Field, MoveError>)
    requires Consistent(f) && ValidCell(f, p) && f.firstMove
    ensures r != Failure(InvalidCell)
    ensures r.Success? ==> Consistent(r.value) && !r.value.firstMove
    ensures r.Success? ==> r.value.rows == f.rows && r.value.cols == f.cols && r.value.bombCount == f.bombCount
    ensures f.grid[p].state != Revealed && (exists q :: q in f.grid && !f.grid[q].bomb) ==> r.Success?
    ensures r.Success? ==>
              && r.value.grid[p].state == Revealed && !r.value.grid[p].bomb
              && r.value.result == f.result
    ensures r.Success? ==>
              forall q :: q in f.grid && r.value.grid[q].state != f.grid[q].state ==>
                r.value.grid[q].state == Revealed && !r.value.grid[q].bomb
    ensures r.Success? && !f.grid[p].bomb ==> Mines(r.value.grid) == Mines(f.grid)
    ensures r.Success? && f.grid[p].bomb ==>
              exists e :: Bombs.FirstSafe(f.grid, e) && Mines(r.value.grid) == Mines(f.grid) - {p} + {e}
    ensures r.Success? <==> FirstMoveAllowed(f, p)
    ensures r.Success? ==> FloodFilled(f, r.value, p)
  {
    var f1 := f;
    if f.grid[p].bomb {
      f1 := Bombs.MoveBombToFirstEmpty(f, p);
    }
    FirstMoveAllowedAfterMove(f, p, f1);
    if f1.values[p] == BombCell || (f1.values[p] != 0 && f1.grid[p].state == Revealed) {
      return Failure(AssertionFailed);
    }
    var g, order := RevealArea(f1, p);
    RevealAfterMove(f, f1, g);
    FirstMoveFill(f, f1, g, g.(firstMove := false), p, order);
    r := Success(g.(firstMove := false));
  }

  /**
   * `chooseCell`.  Out-of-range coordinates are rejected before anything
   * changes.  The first move first relocates a mine away from the chosen cell
   * and then runs the flood fill; it always clears `firstMove`.  A later move
   * on a mine reveals every cell, marks the chosen one Exploded and loses the
   * game; a later move on a safe cell reveals just that cell.
   */
  method ChooseCell(f: Field, p: Pos) returns (r: Result<Field, MoveError>)
    requires Consistent(f)
    ensures r == Failure(InvalidCell) <==> !ValidCell(f, p)
    ensures r == Failure(AssertionFailed) ==> f.firstMove
    ensures r.Success? ==> Consistent(r.value) && !r.value.firstMove
    ensures r.Success? ==> r.value.rows == f.rows && r.value.cols == f.cols && r.value.bombCount == f.bombCount
    ensures ValidCell(f, p) && f.firstMove && f.grid[p].state != Revealed && (exists q :: q in f.grid && !f.grid[q].bomb) ==> r.Success?
    ensures f.firstMove && r.Success? ==>
              && r.value.grid[p].state == Revealed && !r.value.grid[p].bomb
              && r.value.result == f.result
    ensures f.firstMove && r.Success? ==>
              forall q :: q in f.grid && r.value.grid[q].state != f.grid[q].state ==>
                r.value.grid[q].state == Revealed && !r.value.grid[q].bomb
    ensures f.firstMove && r.Success? && !f.grid[p].bomb ==> Mines(r.value.grid) == Mines(f.grid)
    ensures f.firstMove && r.Success? && f.grid[p].bomb ==>
              exists e :: Bombs.FirstSafe(f.grid, e) && Mines(r.value.grid) == Mines(f.grid) - {p} + {e}
    ensures ValidCell(f, p) && f.firstMove ==> (r.Success? <==> FirstMoveAllowed(f, p))
    ensures f.firstMove && r.Success? ==> FloodFilled(f, r.value, p)
    ensures ValidCell(f, p) && !f.firstMove && f.grid[p].bomb ==>
              && r.Success?
              && r.value.result == GameLost
              && r.value.grid[p] == f.grid[p].(state := Exploded)
              && (forall q :: q in f.grid && q != p ==> r.value.grid[q] == f.grid[q].(state := Revealed))
    ensures ValidCell(f, p) && !f.firstMove && !f.grid[p].bomb ==>
              && r.Success?
              && r.value.result == f.result
              && r.value.grid[p] == f.grid[p].(state := Revealed)
              && (forall q :: q in f.grid && q != p ==> r.value.grid[q] == f.grid[q])
  {
    if !ValidCell(f, p) {
      return Failure(InvalidCell);
    }
    if f.firstMove {
      r := FirstMove(f, p);
    } else if f.grid[p].bomb {
      var g := RevealAll(f);
      g := g.(grid := g.grid[p := g.grid[p].(state := Exploded)]);
      StatesDoNotMatter(f, g);
      r := Success(g.(result := GameLost));
    } else {
      var g := f.(grid := f.grid[p := f.grid[p].(state := Revealed)]);
      StatesDoNotMatter(f, g);
      r := Success(g);
    }
  }

  /**
   * `chooseCell` as written.  On a first move onto a mine it relocates only
   * the mine flag, so `bombValues` still holds -1 at the chosen cell and the
   * first assertion of `revealArea` fires, whether or not a safe cell existed
   * to take the mine.  Every other move is the corrected `ChooseCell`.
   */
  method ChooseCellAsWritten(f: Field, p: Pos) returns (r: Result<Field, MoveError>)
    requires Consistent(f)
    ensures r == Failure(InvalidCell) <==> !ValidCell(f, p)
    ensures ValidCell(f, p) && f.firstMove && f.grid[p].bomb ==> r == Failure(AssertionFailed)
    ensures r.Success? ==> Consistent(r.value) && !r.value.firstMove
    ensures r.Success? ==> r.value.rows == f.rows && r.value.cols == f.cols && r.value.bombCount == f.bombCount
    ensures ValidCell(f, p) && f.firstMove && !f.grid[p].bomb && f.grid[p].state != Revealed ==>
              && r.Success?
              && r.value.grid[p].state == Revealed
              && r.value.result == f.result
    ensures ValidCell(f, p) && !f.firstMove ==> r.Success?
    ensures f.firstMove && r.Success? ==>
              forall q :: q in f.grid && r.value.grid[q].state != f.grid[q].state ==>
                r.value.grid[q].state == Revealed && !r.value.grid[q].bomb
    ensures f.firstMove && r.Success? ==> Mines(r.value.grid) == Mines(f.grid)
    ensures ValidCell(f, p) && f.firstMove && !f.grid[p].bomb ==> (r.Success? <==> FirstMoveAllowed(f, p))
    ensures f.firstMove && r.Success? ==> FloodFilled(f, r.value, p)
  {
    if ValidCell(f, p) && f.firstMove && f.grid[p].bomb {
      var f1 := Bombs.MoveBombToFirstEmptyAsWritten(f, p);
      assert f1.values[p] == BombCell;
      r := Failure(AssertionFailed);
    } else {
      r := ChooseCell(f, p);
    }
  }
}

=== FILE: textcodec.dfy ===
/**
 * The text form of a minefield: `toString` with `getCellChar`, which
 * writes one line per row, and the `Minefield(File)` constructor, which
 * reads the '#', 'X', 'b', 'B' board format back.  The file is its text;
 * the platform line separator is a parameter.
 */
module TextCodec {
  import opened Results
  import opened Grid
  import Bombs

  // ---------------------------------------------------------------- encoder

  /** `(char) (value + '0')` for a count of mined neighbours. */
  function DigitChar(v: int): char
    requires 0 <= v <= 8
  {
    ('0' as int + v) as char
  }

  /** `getCellChar`: '#' hidden, 'F' flagged, and for any other state 'B' on
      a mine and the digit of its count elsewhere. */
  function CellChar(f: Field, p: Pos): char
    requires Consistent(f) && p in f.grid
  {
    var c := f.grid[p];
    if c.state == Hidden then '#'
    else if c.state == Flagged then 'F'
    else if c.bomb then 'B'
    else
      ConsistentValueRange(f, p);
      DigitChar(f.values[p])
  }

  /** What a character of the board text tells a reader about its cell. */
  lemma CellCharMeaning(f: Field, p: Pos)
    requires Consistent(f) && p in f.grid
    ensures CellChar(f, p) == '#' <==> f.grid[p].state == Hidden
    ensures CellChar(f, p) == 'F' <==> f.grid[p].state == Flagged
    ensures CellChar(f, p) == 'B' <==> f.grid[p].state !in {Hidden, Flagged} && f.grid[p].bomb
    ensures '0' <= CellChar(f, p) <= '8' <==> f.grid[p].state !in {Hidden, Flagged} && !f.grid[p].bomb
    ensures '0' <= CellChar(f, p) <= '8' ==>
      CellChar(f, p) as int - '0' as int == NeighbourMines(f.grid, p)
  {
    ConsistentValueRange(f, p);
  }

  /** The characters of row i. */
  function RowText(f: Field, i: int): (s: seq<char>)
    requires Consistent(f) && 0 <= i < f.rows
  {
    seq(f.cols, j requires 0 <= j < f.cols => CellChar(f, Pos(i, j)))
  }

  /** The rows of the board text, top to bottom. */
  function BoardRows(f: Field): (rows: seq<seq<char>>)
    requires Consistent(f)
  {
    seq(f.rows, i requires 0 <= i < f.rows => RowText(f, i))
  }

  /** Each row followed by the separator, as `toString` appends them. */
  function JoinRows(rows: seq<seq<char>>, sep: seq<char>): seq<char> {
    if rows == [] then [] else rows[0] + sep + JoinRows(rows[1..], sep)
  }

  /** `toString`. */
  function Encode(f: Field, sep: seq<char>): seq<char>
    requires Consistent(f)
  {
    JoinRows(BoardRows(f), sep)
  }

  /** No cell character ends a line. */
  lemma RowTextHasNoBreak(f: Field, i: int)
    requires Consistent(f) && 0 <= i < f.rows
    ensures |RowText(f, i)| == f.cols
    ensures forall k :: 0 <= k < |RowText(f, i)| ==> !IsLineBreak(RowText(f, i)[k])
  {
    forall k | 0 <= k < f.cols
      ensures !IsLineBreak(RowText(f, i)[k])
    {
      CellCharMeaning(f, Pos(i, k));
    }
  }

  // ---------------------------------------------------------------- lines

  predicate IsLineBreak(c: char) {
    c == '\n' || c == '\r'
  }

  /** The platform line separators `System.lineSeparator` can return. */
  predicate IsSeparator(sep: seq<char>) {
    sep == ['\n'] || sep == ['\r', '\n']
  }

  /** The length of the line `readLine` returns first: everything before
      the first '\n' or '\r'. */
  function FirstLineLength(text: seq<char>): (n: nat)
    ensures n <= |text|
    ensures forall k :: 0 <= k < n ==> !IsLineBreak(text[k])
    ensures n < |text| ==> IsLineBreak(text[n])
  {
    if text == [] || IsLineBreak(text[0]) then 0 else 1 + FirstLineLength(text[1..])
  }

  /** How many times `readLine` returns a line: a line ends at '\n', '\r'
      or "\r\n", and a break at the very end opens no further line. */
  function LineCount(text: seq<char>): (n: nat)
    ensures text != [] ==> n >= 1
    decreases |text|
  {
    if text == [] then 0
    else
      var k := FirstLineLength(text);
      if k == |text| then 1
      else if text[k] == '\r' && k + 1 < |text| && text[k + 1] == '\n' then 1 + LineCount(text[k + 2..])
      else 1 + LineCount(text[k + 1..])
  }

  /** Index of the first '\n', or the length if there is none. */
  function LineFeedIndex(s: seq<char>): (k: nat)
    ensures k <= |s|
    ensures forall m :: 0 <= m < k ==> s[m] != '\n'
    ensures k < |s| ==> s[k] == '\n'
  {
    if s == [] || s[0] == '\n' then 0 else 1 + LineFeedIndex(s[1..])
  }

  /** The rows the character loop of the file constructor walks: it moves
      to the next row on '\n' and on nothing else. */
  function Segments(text: seq<char>): (segs: seq<seq<char>>)
    ensures |segs| >= 1
    decreases |text|
  {
    var k := LineFeedIndex(text);
    if k == |text| then [text] else [text[..k]] + Segments(text[k + 1..])
  }

  /** The segments joined with '\n' in between. */
  function JoinLines(segs: seq<seq<char>>): seq<char>
    requires |segs| >= 1
  {
    if |segs| == 1 then segs[0] else segs[0] + ['\n'] + JoinLines(segs[1..])
  }

  /** Cutting a text at its line feeds loses nothing, and no segment holds a
      line feed. */
  lemma {:induction false} SegmentsJoin(text: seq<char>)
    ensures JoinLines(Segments(text)) == text
    ensures forall i, m :: 0 <= i < |Segments(text)| && 0 <= m < |Segments(text)[i]| ==> Segments(text)[i][m] != '\n'
    decreases |text|
  {
    var k := LineFeedIndex(text);
    if k < |text| {
      SegmentsJoin(text[k + 1..]);
      assert text == text[..k] + ['\n'] + text[k + 1..];
      var segs := Segments(text);
      forall i, m | 0 <= i < |segs| && 0 <= m < |segs[i]|
        ensures segs[i][m] != '\n'
      {
        if i > 0 {
          assert segs[i] == Segments(text[k + 1..])[i - 1];
        }
      }
    }
  }

  /** A line without breaks followed by a separator is one `readLine` line. */
  lemma LineThenSeparator(a: seq<char>, sep: seq<char>, rest: seq<char>)
    requires forall k :: 0 <= k < |a| ==> !IsLineBreak(a[k])
    requires IsSeparator(sep)
    ensures LineCount(a + sep + rest) == 1 + LineCount(rest)
    ensures FirstLineLength(a + sep + rest) == |a|
  {
    var t := a + sep + rest;
    FirstLineLengthPrefix(a, sep + rest);
    assert t == a + (sep + rest);
    assert t[|a| + |sep|..] == rest;
    if |sep| == 2 {
      assert t[|a|] == '\r' && t[|a| + 1] == '\n';
    } else {
      assert t[|a|] == '\n';
    }
  }

  lemma {:induction false} LineFeedPrefix(a: seq<char>, rest: seq<char>)
    requires forall k :: 0 <= k < |a| ==> a[k] != '\n'
    ensures LineFeedIndex(a + ['\n'] + rest) == |a|
    ensures (a + ['\n'] + rest)[..|a|] == a && (a + ['\n'] + rest)[|a| + 1..] == rest
  {
    if a != [] {
      LineFeedPrefix(a[1..], rest);
      assert (a + ['\n'] + rest)[1..] == a[1..] + ['\n'] + rest;
    }
  }

  lemma {:induction false} FirstLineLengthPrefix(a: seq<char>, rest: seq<char>)
    requires forall k :: 0 <= k < |a| ==> !IsLineBreak(a[k])
    requires rest != [] && IsLineBreak(rest[0])
    ensures FirstLineLength(a + rest) == |a|
  {
    if a != [] {
      FirstLineLengthPrefix(a[1..], rest);
      assert (a + rest)[1..] == a[1..] + rest;
    }
  }

  /** No character of any row breaks a line. */
  predicate NoBreaks(rows: seq<seq<char>>) {
    forall i, k :: 0 <= i < |rows| && 0 <= k < |rows[i]| ==> !IsLineBreak(rows[i][k])
  }

  /** Every row with `trail` appended. */
  function Trailed(rows: seq<seq<char>>, trail: seq<char>): (r: seq<seq<char>>)
    ensures |r| == |rows|
    ensures forall k :: 0 <= k < |rows| ==> r[k] == rows[k] + trail
  {
    if rows == [] then [] else [rows[0] + trail] + Trailed(rows[1..], trail)
  }

  /** Rows joined by a separator read back as the same rows: one `readLine`
      line per row, the first as long as row 0. */
  lemma {:induction false} JoinRowsLineCount(rows: seq<seq<char>>, sep: seq<char>)
    requires NoBreaks(rows) && IsSeparator(sep)
    ensures LineCount(JoinRows(rows, sep)) == |rows|
    ensures rows != [] ==> FirstLineLength(JoinRows(rows, sep)) == |rows[0]|
  {
    if rows != [] {
      JoinRowsLineCount(rows[1..], sep);
      assert forall k :: 0 <= k < |rows[0]| ==> !IsLineBreak(rows[0][k]);
      LineThenSeparator(rows[0], sep, JoinRows(rows[1..], sep));
    }
  }

  /** The character loop sees row k of joined rows (with the '\r' of a
      "\r\n" separator left at its end) as its row k, and an empty
      segment after the last line feed. */
  lemma {:induction false} JoinRowsSegments(rows: seq<seq<char>>, sep: seq<char>)
    requires NoBreaks(rows) && IsSeparator(sep)
    ensures Segments(JoinRows(rows, sep)) == Trailed(rows, sep[..|sep| - 1]) + [[]]
  {
    var tr := sep[..|sep| - 1];
    if rows != [] {
      var rest := JoinRows(rows[1..], sep);
      JoinRowsSegments(rows[1..], sep);
      var tail := Segments(rest);
      assert tail == Trailed(rows[1..], tr) + [[]];
      SegmentsAfterRow(rows[0], sep, rest);
      var whole := Segments(JoinRows(rows, sep));
      assert whole == [rows[0] + tr] + tail;
      TrailedCons(rows, tr);
    } else {
      assert Segments([]) == [[]];
    }
  }

  /** A line without breaks followed by a separator is one segment of the
      character loop (keeping the '\r' of "\r\n"). */
  lemma SegmentsAfterRow(a: seq<char>, sep: seq<char>, rest: seq<char>)
    requires forall k :: 0 <= k < |a| ==> !IsLineBreak(a[k])
    requires IsSeparator(sep)
    ensures Segments(a + sep + rest) == [a + sep[..|sep| - 1]] + Segments(rest)
  {
    var b := a + sep[..|sep| - 1];
    if sep == ['\n'] {
      assert b == a;
    } else {
      assert sep == ['\r'] + ['\n'];
      assert a + sep + rest == b + ['\n'] + rest;
    }
    SegmentsAfterLine(b, rest);
  }

  lemma SegmentsAfterLine(b: seq<char>, rest: seq<char>)
    requires forall k :: 0 <= k < |b| ==> b[k] != '\n'
    ensures Segments(b + ['\n'] + rest) == [b] + Segments(rest)
  {
    LineFeedPrefix(b, rest);
  }

  lemma TrailedCons(rows: seq<seq<char>>, tr: seq<char>)
    requires rows != []
    ensures Trailed(rows, tr) + [[]] == [rows[0] + tr] + (Trailed(rows[1..], tr) + [[]])
  {
    assert Trailed(rows, tr) == [rows[0] + tr] + Trailed(rows[1..], tr);
  }

  /** `toString` writes `rows` lines, the first `cols` characters long,
      which is the board shape the file constructor recovers from a text. */
  lemma EncodeLines(f: Field, sep: seq<char>)
    requires Consistent(f) && IsSeparator(sep)
    ensures LineCount(Encode(f, sep)) == f.rows
    ensures FirstLineLength(Encode(f, sep)) == f.cols
  {
    BoardRowsNoBreaks(f);
    JoinRowsLineCount(BoardRows(f), sep);
  }

  /** The character loop's rows of the board text are the board rows, each
      with the '\r' of a "\r\n" separator at its end. */
  lemma EncodeSegments(f: Field, sep: seq<char>)
    requires Consistent(f) && IsSeparator(sep)
    ensures Segments(Encode(f, sep)) == Trailed(BoardRows(f), sep[..|sep| - 1]) + [[]]
  {
    BoardRowsNoBreaks(f);
    JoinRowsSegments(BoardRows(f), sep);
  }

  /** Cell (i, j) is character j of the character loop's row i of the
      board text, and there is one row more than the board has (the empty
      one after the last separator). */
  lemma EncodeCells(f: Field, sep: seq<char>)
    requires Consistent(f) && IsSeparator(sep)
    ensures |Segments(Encode(f, sep))| == f.rows + 1
    ensures forall i, j :: 0 <= i < f.rows && 0 <= j < f.cols ==>
      j < |Segments(Encode(f, sep))[i]| && Segments(Encode(f, sep))[i][j] == CellChar(f, Pos(i, j))
  {
    EncodeSegments(f, sep);
    forall i, j | 0 <= i < f.rows && 0 <= j < f.cols
      ensures j < |Segments(Encode(f, sep))[i]| && Segments(Encode(f, sep))[i][j] == CellChar(f, Pos(i, j))
    {
      assert Segments(Encode(f, sep))[i] == BoardRows(f)[i] + sep[..|sep| - 1];
      BoardRowsCell(f, i, j);
    }
  }

  /** The board rows are free of line breaks and `cols` characters long. */
  lemma BoardRowsNoBreaks(f: Field)
    requires Consistent(f)
    ensures NoBreaks(BoardRows(f))
    ensures forall i :: 0 <= i < f.rows ==> |BoardRows(f)[i]| == f.cols
  {
    var rows := BoardRows(f);
    forall i | 0 <= i < f.rows
      ensures |rows[i]| == f.cols && forall k :: 0 <= k < f.cols ==> !IsLineBreak(rows[i][k])
    {
      RowTextHasNoBreak(f, i);
      assert rows[i] == RowText(f, i);
    }
  }

  /** Character j of board row i is the character of cell (i, j). */
  lemma BoardRowsCell(f: Field, i: int, j: int)
    requires Consistent(f) && 0 <= i < f.rows && 0 <= j < f.cols
    ensures j < |BoardRows(f)[i]| && BoardRows(f)[i][j] == CellChar(f, Pos(i, j))
  {
    assert BoardRows(f)[i] == RowText(f, i);
  }

  // ---------------------------------------------------------------- decoder

  /** The four characters the file constructor turns into cells. */
  predicate IsCellChar(c: char) {
    c == 'B' || c == 'b' || c == '#' || c == 'X'
  }

  /** The character loop meets a cell character at row p.row, column p.col. */
  predicate CellCharAt(segs: seq<seq<char>>, p: Pos) {
    0 <= p.row < |segs| && 0 <= p.col < |segs[p.row]| && IsCellChar(segs[p.row][p.col])
  }

  /** 'B' (revealed mine) or 'b' (hidden mine). */
  predicate MineAt(segs: seq<seq<char>>, p: Pos) {
    CellCharAt(segs, p) && (segs[p.row][p.col] == 'B' || segs[p.row][p.col] == 'b')
  }

  /** 'B' (revealed mine) or 'X' (revealed, no mine). */
  predicate RevealedAt(segs: seq<seq<char>>, p: Pos) {
    CellCharAt(segs, p) && (segs[p.row][p.col] == 'B' || segs[p.row][p.col] == 'X')
  }

  /** Why the file constructor throws: an empty file makes the first
      `readLine` return null, and a cell character beyond the board indexes
      past the arrays. */
  datatype DecodeError = EmptyText | OutOfBounds

  /** A decoded field, and the positions the text never set: Java leaves a
      null there, the model a hidden non-mine placeholder. */
  datatype Decoded = Decoded(field: Field, unset: set<Pos>)

  /** What the character loop has made of cell p once it has passed
      position e: a cell character it has met sets the cell, any other
      position is still the placeholder and counts as unset. */
  ghost predicate CellParsed(d: Decoded, segs: seq<seq<char>>, p: Pos, e: Pos)
    requires p in d.field.grid
  {
    var seen := RowMajorBefore(p, e) && CellCharAt(segs, p);
    && (p in d.unset <==> !seen)
    && d.field.grid[p] == Cell(if seen && RevealedAt(segs, p) then Revealed else Hidden, seen && MineAt(segs, p))
  }

  /** The character loop has handled every character before row i, column j. */
  ghost predicate Parsed(d: Decoded, segs: seq<seq<char>>, rows: int, cols: int, i: int, j: int) {
    var f := d.field;
    && Consistent(f) && f.rows == rows && f.cols == cols
    && f.firstMove && f.result == InProgress
    && d.unset <= f.grid.Keys
    && (forall p :: p in f.grid ==> CellParsed(d, segs, p, Pos(i, j)))
    && (forall p :: RowMajorBefore(p, Pos(i, j)) && CellCharAt(segs, p) ==> InRange(rows, cols, p))
  }

  /** The arrays before the character loop: `new Cell[rows][cols]` and a
      zero count matrix. */
  function Blank(rows: int, cols: int, segs: seq<seq<char>>): (d: Decoded)
    requires 1 <= rows && 0 <= cols
    ensures Parsed(d, segs, rows, cols, 0, 0)
  {
    var f := Field(rows, cols, map p | p in AllPositions(rows, cols) :: Cell(Hidden, false),
                   map p | p in AllPositions(rows, cols) :: 0, 0, true, InProgress);
    assert Mines(f.grid) == {};
    assert forall p :: p in f.grid ==> MinesAround(f.grid, p) == {};
    Decoded(f, AllPositions(rows, cols))
  }

  /** A character that is not a cell character only takes a column. */
  lemma SkipKeepsParsed(d: Decoded, segs: seq<seq<char>>, rows: int, cols: int, i: int, j: int)
    requires 0 <= i < |segs| && 0 <= j < |segs[i]| && !IsCellChar(segs[i][j])
    requires Parsed(d, segs, rows, cols, i, j)
    ensures Parsed(d, segs, rows, cols, i, j + 1)
  {
    forall p | p in d.field.grid
      ensures CellParsed(d, segs, p, Pos(i, j + 1))
    {
      assert CellCharAt(segs, p) ==> (RowMajorBefore(p, Pos(i, j + 1)) <==> RowMajorBefore(p, Pos(i, j)));
    }
    forall p | RowMajorBefore(p, Pos(i, j + 1)) && CellCharAt(segs, p)
      ensures InRange(rows, cols, p)
    {
      assert RowMajorBefore(p, Pos(i, j));
    }
  }

  /** Setting cell (i, j) from its character keeps the loop invariant. */
  lemma SetKeepsParsed(d: Decoded, g: Field, segs: seq<seq<char>>, rows: int, cols: int, i: int, j: int)
    requires 0 <= i < |segs| && 0 <= j < |segs[i]| && CellCharAt(segs, Pos(i, j))
    requires InRange(rows, cols, Pos(i, j))
    requires Parsed(d, segs, rows, cols, i, j)
    requires Consistent(g) && g.rows == rows && g.cols == cols && g.firstMove && g.result == InProgress
    requires g.grid == d.field.grid[Pos(i, j) :=
      Cell(if RevealedAt(segs, Pos(i, j)) then Revealed else Hidden, MineAt(segs, Pos(i, j)))]
    ensures Parsed(Decoded(g, d.unset - {Pos(i, j)}), segs, rows, cols, i, j + 1)
  {
    var t := Pos(i, j);
    var d' := Decoded(g, d.unset - {t});
    forall p | p in g.grid
      ensures CellParsed(d', segs, p, Pos(i, j + 1))
    {
      if p.row == i && p.col == j {
        assert p == t;
      } else {
        assert CellParsed(d, segs, p, t);
        assert RowMajorBefore(p, Pos(i, j + 1)) <==> RowMajorBefore(p, t);
      }
    }
    forall p | RowMajorBefore(p, Pos(i, j + 1)) && CellCharAt(segs, p)
      ensures InRange(rows, cols, p)
    {
      if !(p.row == i && p.col == j) {
        assert RowMajorBefore(p, t);
      }
    }
  }

  /** `grid[i][j] = new Cell(...)`, followed by `addBomb(i, j)` for a mine. */
  method PlaceCell(f: Field, t: Pos, state: CellState, bomb: bool) returns (g: Field)
    requires Consistent(f) && t in f.grid && !f.grid[t].bomb
    ensures Consistent(g)
    ensures g == f.(grid := g.grid, values := g.values, bombCount := g.bombCount)
    ensures g.grid == f.grid[t := Cell(state, bomb)]
  {
    var reset := f.(grid := f.grid[t := Cell(state, false)]);
    StatesDoNotMatter(f, reset);
    if bomb {
      g := Bombs.AddBomb(reset, t);
      UpdateTwice(f.grid, t, Cell(state, false), Cell(state, true));
    } else {
      g := reset;
    }
  }

  lemma UpdateTwice<K, V>(m: map<K, V>, k: K, a: V, b: V)
    ensures m[k := a][k := b] == m[k := b]
  {
  }

  /** One character of the loop at row i, column j. */
  method DecodeChar(d: Decoded, segs: seq<seq<char>>, rows: int, cols: int, i: int, j: int)
    returns (r: Result<Decoded, DecodeError>)
    requires 0 <= i < |segs| && 0 <= j < |segs[i]|
    requires Parsed(d, segs, rows, cols, i, j)
    ensures r.Failure? <==> CellCharAt(segs, Pos(i, j)) && !InRange(rows, cols, Pos(i, j))
    ensures r.Failure? ==> r.error == OutOfBounds
    ensures r.Success? ==> Parsed(r.value, segs, rows, cols, i, j + 1)
  {
    var c := segs[i][j];
    var t := Pos(i, j);
    if !IsCellChar(c) {
      SkipKeepsParsed(d, segs, rows, cols, i, j);
      return Success(d);
    }
    if !InRange(rows, cols, t) {
      return Failure(OutOfBounds);
    }
    var f := d.field;
    var g := PlaceCell(f, t, if c == 'B' || c == 'X' then Revealed else Hidden, c == 'B' || c == 'b');
    SetKeepsParsed(d, g, segs, rows, cols, i, j);
    return Success(Decoded(g, d.unset - {t}));
  }

  /** Past the end of row i the loop has seen all of it. */
  lemma ParsedNextRow(d: Decoded, segs: seq<seq<char>>, rows: int, cols: int, i: int)
    requires 0 <= i < |segs|
    requires Parsed(d, segs, rows, cols, i, |segs[i]|)
    ensures Parsed(d, segs, rows, cols, i + 1, 0)
  {
    forall p | p in d.field.grid
      ensures CellParsed(d, segs, p, Pos(i + 1, 0))
    {
      assert CellCharAt(segs, p) ==> (RowMajorBefore(p, Pos(i, |segs[i]|)) <==> RowMajorBefore(p, Pos(i + 1, 0)));
    }
    forall p | RowMajorBefore(p, Pos(i + 1, 0)) && CellCharAt(segs, p)
      ensures InRange(rows, cols, p)
    {
      assert RowMajorBefore(p, Pos(i, |segs[i]|));
    }
  }

  /** After the last row every cell character has been seen. */
  lemma ParsedAll(d: Decoded, segs: seq<seq<char>>, rows: int, cols: int)
    requires Parsed(d, segs, rows, cols, |segs|, 0)
    ensures forall p :: CellCharAt(segs, p) ==> InRange(rows, cols, p)
    ensures forall p :: p in d.field.grid ==>
      && (p in d.unset <==> !CellCharAt(segs, p))
      && d.field.grid[p] == Cell(if RevealedAt(segs, p) then Revealed else Hidden, MineAt(segs, p))
  {
    forall p | CellCharAt(segs, p)
      ensures RowMajorBefore(p, Pos(|segs|, 0))
    {
    }
    forall p | p in d.field.grid
      ensures && (p in d.unset <==> !CellCharAt(segs, p))
              && d.field.grid[p] == Cell(if RevealedAt(segs, p) then Revealed else Hidden, MineAt(segs, p))
    {
      assert CellParsed(d, segs, p, Pos(|segs|, 0));
    }
  }

  /** The characters of row i. */
  method DecodeRow(d: Decoded, segs: seq<seq<char>>, rows: int, cols: int, i: int)
    returns (r: Result<Decoded, DecodeError>)
    requires 0 <= i < |segs|
    requires Parsed(d, segs, rows, cols, i, 0)
    ensures r.Failure? <==> exists j :: 0 <= j < |segs[i]| && CellCharAt(segs, Pos(i, j)) && !InRange(rows, cols, Pos(i, j))
    ensures r.Failure? ==> r.error == OutOfBounds
    ensures r.Success? ==> Parsed(r.value, segs, rows, cols, i + 1, 0)
  {
    var cur := d;
    for j := 0 to |segs[i]|
      invariant Parsed(cur, segs, rows, cols, i, j)
      invariant forall k :: 0 <= k < j && CellCharAt(segs, Pos(i, k)) ==> InRange(rows, cols, Pos(i, k))
    {
      var step := DecodeChar(cur, segs, rows, cols, i, j);
      if step.Failure? {
        return step;
      }
      cur := step.value;
    }
    ParsedNextRow(cur, segs, rows, cols, i);
    return Success(cur);
  }

  /**
   * The `Minefield(File)` constructor.  The first pass counts `readLine`
   * lines for the row count and takes the first line's length as the column
   * count; the second walks the characters, moving to the next row on '\n':
   * 'B' and 'b' are mines, 'B' and 'X' are revealed, every other character
   * takes a column and sets nothing.
   */
  method Decode(text: seq<char>) returns (r: Result<Decoded, DecodeError>)
    ensures r == Failure(EmptyText) <==> text == []
    ensures text != [] ==>
      (r == Failure(OutOfBounds) <==>
         exists p :: CellCharAt(Segments(text), p) && !InRange(LineCount(text), FirstLineLength(text), p))
    ensures r.Success? ==> ReadsAs(r.value, text)
  {
    if text == [] {
      return Failure(EmptyText);
    }
    var segs := Segments(text);
    var rows := LineCount(text);
    var cols := FirstLineLength(text);
    var cur := Blank(rows, cols, segs);
    for i := 0 to |segs|
      invariant Parsed(cur, segs, rows, cols, i, 0)
    {
      var step := DecodeRow(cur, segs, rows, cols, i);
      if step.Failure? {
        ghost var j :| 0 <= j < |segs[i]| && CellCharAt(segs, Pos(i, j)) && !InRange(rows, cols, Pos(i, j));
        return Failure(OutOfBounds);
      }
      cur := step.value;
    }
    ParsedAll(cur, segs, rows, cols);
    ReadsAsParsed(cur, text);
    return Success(cur);
  }

  /** What a successful `Decode` of `text` gives: a consistent, fresh field
      of `LineCount(text)` rows and `FirstLineLength(text)` columns whose
      cells follow the characters of the text, and cells without a character
      left unset. */
  ghost predicate ReadsAs(d: Decoded, text: seq<char>) {
    var f, segs := d.field, Segments(text);
    && Consistent(f)
    && f.rows == LineCount(text) && f.cols == FirstLineLength(text)
    && f.firstMove && f.result == InProgress
    && d.unset <= f.grid.Keys
    && (forall p :: p in f.grid ==> (p in d.unset <==> !CellCharAt(segs, p)))
    && (forall p :: p in f.grid ==> (f.grid[p].bomb <==> MineAt(segs, p)))
    && (forall p :: p in f.grid ==> f.grid[p].state == (if RevealedAt(segs, p) then Revealed else Hidden))
  }

  lemma ReadsAsParsed(d: Decoded, text: seq<char>)
    requires Parsed(d, Segments(text), LineCount(text), FirstLineLength(text), |Segments(text)|, 0)
    requires forall p :: p in d.field.grid ==>
      && (p in d.unset <==> !CellCharAt(Segments(text), p))
      && d.field.grid[p] == Cell(if RevealedAt(Segments(text), p) then Revealed else Hidden, MineAt(Segments(text), p))
    ensures ReadsAs(d, text)
  {
  }

}
